=== FILE: README.md ===
# Invoice generator core in Dafny

A Dafny model of the logic at the centre of a small desktop invoice generator
written in Python. Two parts are modelled:

- The invoice data model of `models.py`:
  - a `LineItem` with integer amount and price and a derived subtotal, and its
    dictionary round trip;
  - an `Invoice` whose total is the sum of the subtotals, with appending, and
    removal that refuses to drop the last item and renumbers the survivors
    1..n;
  - the `InvoiceValidator`, which turns an item or an invoice into the ordered
    list of error messages, using the bounds of `config.py`.
- The pure string helpers of `utils.py`:
  - filename sanitising (`get_safe_filename`) and the default PDF file name;
  - truncation with a suffix;
  - the rendering of a list of validation errors as one message;
  - currency formatting and parsing (`"Rp "` plus comma-grouped digits) for
    whole amounts.

Modules, one per concern:

| module | file | contents |
|---|---|---|
| `Results` | results.dfy | `Option` and `Result` |
| `Config` | config.dfy | the quantity, price and currency constants of config.py |
| `PyStr` | pystr.dfy | the Python `str` operations the code relies on: `strip`, `replace`, slicing |
| `Decimal` | decimal.dfy | `str(n)`, the `","` thousands grouping, reading whole numbers back |
| `Models` | models.dfy | `LineItem`, `Invoice`, their dictionary forms, `create_default` |
| `Validation` | validation.dfy | `InvoiceValidator` |
| `Utils` | utils.dfy | filenames, truncation, error formatting |
| `Currency` | currency.dfy | `format_currency`, `parse_currency` |

Python's in-place mutation (`add_line_item`, `remove_line_item`,
`_renumber_items`) is modelled by functions that return the updated invoice.
`remove_line_item` returns the pair (updated invoice, success flag).

The validator is modelled in two layers. First, each check produces an
`Issue` value. Then `Message` renders that issue as the exact text the Python
code appends. This lets the ordering and membership properties be stated on
issues, and the message texts be stated once.

`str.strip()` is modelled with the exact set of code points for which Python's
`str.isspace()` holds. `float()` skips a smaller set around a number. It first
turns non-ASCII whitespace into spaces, then trims only the ASCII blanks
`\t \n \v \f \r` and space. So the separators U+001C..U+001F, which
`str.isspace()` accepts, stop `float()` from reading a number.

## Model

| member | source | states |
|---|---|---|
| `Models.LineItemToDict` | models.py:25-33 | the dictionary has exactly the four field keys plus `"subtotal"`, and its `"subtotal"` entry is `amount * price` |
| `Models.LineItem.Subtotal` | models.py:20-23 | the subtotal of an item whose amount and price are both non-negative is never negative |
| `Models.LineItemFromDict` | models.py:35-43 | reading succeeds exactly when the four field keys are present with values of the field types, and the item's fields are those entries. A missing-key error is reported exactly when one of the four keys is absent, and it names the first absent key in the order number, description, amount, price, as Python's `KeyError` does. Every error names one of the four keys |
| `Models.LineItemDictRoundTrip` | models.py:25-43 | `from_dict(to_dict(li))` gives back `li` |
| `Models.LineItemFromDictIgnoresExtraKeys` | models.py:35-43 | adding or changing a key other than the four fields (such as `"subtotal"`) does not change what `from_dict` returns |
| `Models.SumSubtotals` | models.py:55-58 | the sum over no items is 0, and a sum of non-negative subtotals is non-negative |
| `Models.Invoice.Total` | models.py:55-58 | an invoice without items totals 0, and one whose amounts and prices are all non-negative never has a negative total |
| `Models.SumSubtotalsAppend` | models.py:55-58 | the total of a concatenation of item lists is the sum of their totals |
| `Models.SumSubtotalsIgnoresNumbers` | models.py:55-58 | two item lists that differ only in line numbers have the same total |
| `Models.Renumber` | models.py:72-75 | renumbering keeps every item's description, amount and price in place and numbers the items exactly 1..n |
| `Models.RenumberIdempotent` | models.py:72-75 | renumbering twice is the same as renumbering once |
| `Models.RenumberNumbered` | models.py:72-75 | items already numbered 1..n are left exactly as they are |
| `Models.Invoice.AddLineItem` | models.py:60-62 | the item is appended at the end: earlier items are unchanged, the length grows by one, the header fields are unchanged, and the total grows by the new item's subtotal |
| `Models.Invoice.RemoveLineItem` | models.py:64-75 | removal succeeds exactly when the index is in range and at least two items exist. A refused removal leaves the invoice untouched. A successful one drops one item and keeps the survivors' contents in their original order, numbered 1..n. The header never changes, and a non-empty invoice never becomes empty |
| `Models.RemoveLineItemTotal` | models.py:55-70 | a successful removal lowers the total by exactly the removed item's subtotal |
| `Models.Invoice.ToDict` | models.py:77-86 | the dictionary has the six invoice keys; the four header entries hold the invoice number, date, customer name and address; `"line_items"` holds each item's dictionary in order; and `"total"` is the invoice total |
| `Models.InvoiceDictConsistent` | models.py:77-86 | in the serialised invoice, `"total"` equals the sum of the items' `"subtotal"` entries, and every item dictionary reads back as its item |
| `Models.CreateDefault` | models.py:88-108 | the default invoice is numbered `"INV-"` plus the date stamp, has empty customer fields, and holds one item numbered 1 with an empty description, the default quantity and price 0, so its total is 0 |
| `Validation.Message` | models.py:119-154 | every message is non-empty, and it starts with `L` exactly for an item message carrying its `"Line n: "` prefix, so header and line messages cannot be confused |
| `Validation.BoundTexts` | models.py:122-132 | the bounds in the amount and price messages are the decimal renderings of `MIN_QUANTITY`, `MAX_QUANTITY` and `MAX_PRICE` |
| `Validation.ItemMessagesDistinct` | models.py:119-132 | two different item checks produce different messages |
| `Validation.LineItemIssues` | models.py:114-134 | an item raises no issue exactly when its description is not blank, `MIN_QUANTITY <= amount <= MAX_QUANTITY` and `0 <= price <= MAX_PRICE` |
| `Validation.LineItemIssuesReport` | models.py:119-132 | each of the five item issues is reported exactly when its own condition holds |
| `Validation.LineItemIssuesShape` | models.py:122-132 | an item raises only item issues, and at most three at once, since each pair of amount bounds and each pair of price bounds exclude each other |
| `Validation.LineItemIssuesOrdered` | models.py:119-134 | an item's issues come in the order the checks are written |
| `Validation.ValidateLineItem` | models.py:114-134 | `validate_line_item` returns no message exactly when the item is valid, at most three messages, and the k-th message renders the k-th issue |
| `Validation.ValidateLineItemReports` | models.py:119-134 | an item check's message is in the result exactly when that check fails |
| `Validation.ValidSubtotalBounds` | models.py:20-23 | a valid item's subtotal lies between 0 and `MAX_QUANTITY * MAX_PRICE` |
| `Validation.ValidTotalBounds` | models.py:55-58 | the total of valid items lies between 0 and the item count times `MAX_QUANTITY * MAX_PRICE` |
| `Validation.TaggedEmpty` | models.py:151-154 | the per-line loop reports nothing exactly when every item's own list is empty |
| `Validation.TaggedAppend` | models.py:151-154 | the per-line loop over two runs of items gives the first run's messages, then the second's, with the second's numbers continuing from the first |
| `Validation.TaggedCount` | models.py:150-154 | with at most three messages per item, the loop reports at most three per item |
| `Validation.TaggedInPlace` | models.py:150-154 | item i (0-based) contributes its own list, tagged with line i + 1, between the lists of the items before it and those after it |
| `Validation.LineIssuesEmpty` | models.py:150-154 | the items raise no issue exactly when every item is valid |
| `Validation.LineIssuesCount` | models.py:150-154 | the items raise at most three issues each |
| `Validation.LineIssuesAppend` | models.py:150-154 | the issues of a concatenation of items are those of the first run followed by those of the second, the second numbered on from the first |
| `Validation.ItemIssuesInPlace` | models.py:150-154 | item i (0-based) contributes its own issues on line i + 1, after those of all earlier items and before those of all later ones |
| `Validation.OnLineMessage` | models.py:152-154 | an item issue on line n renders as `"Line n: "` followed by that item's own message |
| `Validation.InvoiceIssues` | models.py:136-156 | an invoice raises no issue exactly when its number and customer name are not blank, it has at least one item, and every item is valid |
| `Validation.InvoiceIssuesReport` | models.py:141-148 | each header issue is reported exactly when its condition holds, and at most three issues per item come on top of the three header issues |
| `Validation.ValidateInvoice` | models.py:136-156 | `validate_invoice` returns no message exactly when the invoice is valid, and the k-th message renders the k-th issue |
| `Validation.CreateDefaultIssues` | models.py:88-108 | a default invoice fails validation for exactly two reasons, in this order: the empty customer name, then the empty description on line 1 |
| `Validation.CreateDefaultMessages` | models.py:144-154 | the messages for a default invoice are `"Customer name cannot be empty"` and `"Line 1: Description cannot be empty"` |
| `PyStr.StripCharsSlice` | utils.py:94-95 | what `strip` leaves is a contiguous run of the input, and every character before it and after it is one of the stripped characters |
| `PyStr.StripCharsEnds` | utils.py:94-95 | what `strip` leaves neither starts nor ends with a stripped character |
| `PyStr.StripCharsEmpty` | utils.py:94-99 | `strip` leaves nothing exactly when every character is stripped |
| `PyStr.StripEmptyIffBlank` | models.py:119 | `not s.strip()` holds exactly for strings made only of whitespace |
| `PyStr.StripCharsKeepsFront` | utils.py:173-177 | when the first character is kept, `strip` keeps a prefix that reaches past every kept character and drops only stripped characters |
| `PyStr.RemoveAllConcat` | utils.py:23 | deleting every comma distributes over concatenation |
| `PyStr.RemoveAllMultiset` | utils.py:23 | deleting every comma keeps each other character exactly as often as before |
| `PyStr.ReplaceChar` | utils.py:92 | `replace` of one character by another changes exactly the occurrences of that character and keeps the length |
| `PyStr.PrefixSlice` | utils.py:113 | `suffix[:k]` is a prefix of `suffix` whose length is `k` clipped to the length, or the length plus `k` clipped to zero for a negative `k` |
| `Utils.ReplaceEachPointwise` | utils.py:88-92 | when `_` is not itself an invalid character, the replacement loop turns each invalid character into `_` and keeps every other character |
| `Utils.SanitizedIsReplaceLoop` | utils.py:88-92 | the replacement loop over `<>:"/\|?*` equals the character-by-character sanitising |
| `Utils.SafeFilename` | utils.py:83-101 | the safe name is never empty, contains none of `<>:"/\|?*`, and neither starts nor ends with a space or a dot |
| `Utils.SafeFilenameFallback` | utils.py:94-99 | the name `"invoice"` is used when the input consists only of spaces and dots; otherwise the result is the sanitised input with only spaces and dots cut from its two ends |
| `Utils.SafeFilenameDrawsFrom` | utils.py:88-99 | every character of the safe name is `_`, a character of the input, or one of `"invoice"` |
| `Utils.SafeFilenameIdempotent` | utils.py:83-101 | sanitising a safe name changes nothing |
| `Utils.TruncateText` | utils.py:104-115 | text within the limit is returned unchanged. Longer text keeps its first `max_length - len(suffix)` characters followed by the suffix, giving exactly `max_length` characters. When the suffix does not fit, the result is `suffix[:max_length]`, with Python's count-from-the-end rule for a negative limit |
| `Utils.TruncateTextIdempotent` | utils.py:104-115 | with a non-negative limit the result is never longer than the limit, so truncating again changes nothing |
| `Utils.DefaultInvoiceFilename` | utils.py:121-125 | the default name starts with `"Invoice_"` and ends with `".pdf"`, and the part in between is non-empty and contains no `-` and none of `<>:"/\|?*` |
| `Utils.DefaultInvoiceFilenameOf` | utils.py:121-125 | an invoice number that is non-empty, has none of `<>:"/\|?*` and no space or dot at either end appears in the file name with each `-` turned into `_`: `"INV-20240101"` gives `"Invoice_INV_20240101.pdf"` |
| `Utils.SafeFilenameClean` | utils.py:83-101 | a name that is non-empty, has no invalid character and no space or dot at either end is returned unchanged |
| `Utils.NumberedLinesSnoc` | utils.py:173-175 | appending an error appends its `"k. error\n"` line, numbered one past the errors before it |
| `Utils.FormatValidationErrors` | utils.py:165-171 | no errors give the empty string, and a single error is returned as it is |
| `Utils.FormatValidationErrorsList` | utils.py:173-177 | two or more errors give the header `"The following issues were found:\n"`, then the numbered lines in order, with exactly the trailing whitespace cut: what is dropped is whitespace, and the result does not end in whitespace |
| `Decimal.DecimalRoundTrip` | utils.py:24 | reading back the decimal rendering of an integer gives the integer |
| `Decimal.GroupedWithoutCommas` | utils.py:23 | deleting the commas from the grouped rendering of a non-negative number leaves its plain digits |
| `Decimal.GroupedCommas` | config.py:45 | in the `","` grouping of a non-negative number, a character is a comma exactly when it sits at a multiple of four positions from the right end |
| `Decimal.GroupedDecimalCommas` | config.py:45 | for either sign, only the first character may be a minus sign, and the other characters are commas exactly at every fourth position from the right |
| `Currency.FormatCurrency` | utils.py:14-16 | the formatted amount starts with the currency symbol `"Rp "`, followed only by digits, commas and a minus sign |
| `Currency.FormatCurrencyGrouping` | utils.py:14-16 | after the symbol comes a minus sign exactly when the amount is negative, no other minus sign, and commas exactly at every fourth position from the right, so every comma is followed by three digits |
| `Currency.CleanCurrency` | utils.py:23 | the cleaned text has no comma, is no longer than the input and draws every character from it. For a text without `R`, it is the text with its commas deleted and every other character kept, as often as before and in order |
| `Currency.ParseCurrency` | utils.py:19-26 | a plain string of ASCII digits reads as its decimal value; behind a `+` it reads as the same value, and behind a `-` as its negation |
| `Currency.IntegerTextClean` | utils.py:23-24 | a string of digits, with or without a leading sign, passes through the cleaning and the stripping unchanged |
| `Currency.ParseCurrencyNonzero` | utils.py:19-26 | a non-zero result comes only from a text that, after the cleaning and stripping, is an optional sign followed by one or more digits; anything else reads as 0 |
| `Currency.ParseCurrencyRejectsJunk` | utils.py:19-26 | a text that needs no cleaning but does not start with a sign or a digit, or does not end with a digit, reads as 0, such as `"x5"` or `"12abc"` |
| `Currency.CleanUnchanged` | utils.py:23-24 | a text without `R`, without commas and without a blank `float()` skips at either end passes through the cleaning and stripping unchanged |
| `Currency.CleanAfter` | utils.py:23 | a prefix with no `R` and no comma comes through the cleaning unchanged, in front of the cleaned rest |
| `Currency.ParseCurrencySeparator` | utils.py:19-26 | a text starting with one of U+001C..U+001F reads as 0, because `float()` does not skip these characters |
| `Currency.ParseCurrencyDropsSymbol` | utils.py:23 | a leading `"Rp "` makes no difference to the reading |
| `Currency.ParseCurrencyIgnoresComma` | utils.py:23 | in a text without `R`, deleting any one comma does not change the reading, so `"1,000"` and `"1000"` read alike |
| `Currency.CommaFree` | utils.py:23 | deleting the commas of `a + "," + b` gives the same text as deleting those of `a + b` |
| `Currency.ParseCurrencyIgnoresLeadingBlanks` | utils.py:24 | blanks that `float()` skips, put in front of any text, do not change the reading |
| `Currency.ParseCurrencyIgnoresTrailingBlanks` | utils.py:24 | blanks that `float()` skips, put behind a text without `R`, do not change the reading |
| `Decimal.DigitsValueLeadingZero` | utils.py:24 | a leading zero does not change the value of a digit string, so `"-05"` reads as -5 |
| `Decimal.ParseInteger` | utils.py:24 | a text is read as a whole number exactly when it is one or more digits with an optional leading sign. A plain digit string reads as its decimal value, a `+` keeps that value, and a `-` negates it |
| `Currency.StripDecimal` | utils.py:24 | the decimal rendering of an integer carries no surrounding blank for `float()` to skip |
| `PyStr.StripCharsDropsFront` | utils.py:24 | stripped characters in front of a text make no difference to the stripping |
| `PyStr.StripCharsDropsBack` | utils.py:24 | stripped characters behind a text make no difference to the stripping |
| `PyStr.RemoveAllAfter` | utils.py:23 | `replace(pat, "")` passes through untouched a prefix that lacks the first character of `pat` |
| `Currency.GroupedDecimalWithoutCommas` | utils.py:16-23 | deleting the commas from a formatted amount of either sign leaves its plain decimal rendering |
| `Currency.CleanFormatted` | utils.py:14-23 | removing the symbol and the commas from a formatted amount leaves its plain decimal rendering |
| `Currency.CurrencyRoundTrip` | utils.py:14-26 | `parse_currency(format_currency(n)) == n` for every integer `n` |
| `Currency.ParseCurrencyWithoutDigits` | utils.py:19-26 | a text with no digit in it cannot be parsed and reads as 0 |

## Left out

- The PyQt interface (main_window.py, widgets.py, main.py) is not modelled. This includes the form's own removal and renumbering of line rows, which only mirrors `Invoice.remove_line_item` through widgets.
- PDF generation with reportlab (pdf_generator.py): foreign library calls and file output.
- The I/O and environment helpers of utils.py are not modelled: `open_file_with_default_app`, `ensure_directory_exists`, `FileManager.get_user_documents_path`, `suggest_save_location` and `log_error`. They do process, filesystem, registry and console I/O.
- Clock reads (`generate_invoice_number`, `get_current_date`, and the date in `Invoice.create_default`) are not modelled. `Models.CreateDefault` takes the two rendered date strings as parameters instead of calling `datetime.now().strftime`.
- `validate_numeric_input`: floating-point parsing and comparison.
- Models.Invoice.RemoveLineItem: line items are modelled as values, not shared objects. `_renumber_items` assigns `number` on the item objects themselves, so the caller's own references see the new numbers. When the same object occurs twice in the list, Python gives both occurrences the number assigned last. The model numbers every position 1..n independently.
- Models.LineItemFromDict: Python's dataclass constructor does not check field types. When all four keys are present but a value has the wrong type, Python still yields a `LineItem`, while the model reports `WrongType`. A missing key is Python's `KeyError`, modelled as `MissingKey` for the same key.
- Currency.FormatCurrency: amounts are integers only. Python formats through a float with `{:,.0f}`, so it rounds fractions and loses exactness beyond 2^53. An integer too large for a double, about 1.8 * 10^308, makes the conversion raise `OverflowError`, which `format_currency` does not catch. The model renders every integer exactly and never fails.
- Currency.ParseCurrency: only an optional sign followed by ASCII digits, with surrounding blanks that `float()` skips, is read as a number. Other text that Python's `float()` accepts reads as 0 in the model: a decimal point, an exponent, underscores between digits, non-ASCII digits, `inf` and `nan`. The result is the exact integer, where Python returns a float. `float()` rounds digit strings beyond 2^53 to the nearest double, and reads digit strings beyond the double range as `inf`.
- `Invoice.total` is declared to return a float in the source, but over integer subtotals it is the integer sum; the model keeps it an integer.
- The validator models `line_item.amount` and `line_item.price` as integers as the dataclass declares them; values of other Python types are not modelled.

=== FILE: config.dfy ===
/** The application constants the invoice logic reads (config.py). */
module Config {

  /** Quantity given to the line item of a fresh invoice. */
  const DEFAULT_QUANTITY: int := 1

  /** Inclusive bounds on a line item's quantity. */
  const MIN_QUANTITY: int := 1
  const MAX_QUANTITY: int := 999

  /** Inclusive upper bound on a line item's unit price. */
  const MAX_PRICE: int := 999999999

  /** Prefix of every rendered amount. */
  const CURRENCY_SYMBOL: string := "Rp "
}

=== FILE: currency.dfy ===
/**
  `format_currency` and `parse_currency` of utils.py for whole amounts: the
  currency symbol followed by the amount with its thousands separated by
  commas, and the reading back of such a text.
 */
module Currency {
  import opened Results
  import Config
  import PyStr
  import Decimal

  /** `format_currency(n)` for an integer `n`: `"Rp "` and `"{:,.0f}"`. */
  function FormatCurrency(n: int): (r: string)
    ensures |r| > |Config.CURRENCY_SYMBOL| && r[..|Config.CURRENCY_SYMBOL|] == Config.CURRENCY_SYMBOL
    ensures forall i :: |Config.CURRENCY_SYMBOL| <= i < |r| ==> Decimal.IsDigit(r[i]) || r[i] == ',' || r[i] == '-'
  {
    var r := Config.CURRENCY_SYMBOL + Decimal.GroupedDecimal(n);
    assert forall i :: |Config.CURRENCY_SYMBOL| <= i < |r| ==> r[i] == Decimal.GroupedDecimal(n)[i - |Config.CURRENCY_SYMBOL|];
    r
  }

  /** The layout of `"{:,.0f}"` after the symbol: a minus sign exactly when
      `n` is negative, then digits with a comma before every group of three
      counted from the right. */
  lemma FormatCurrencyGrouping(n: int)
    ensures var r := FormatCurrency(n);
            && (r[|Config.CURRENCY_SYMBOL|] == '-' <==> n < 0)
            && (forall i :: |Config.CURRENCY_SYMBOL| < i < |r| ==> r[i] != '-')
            && (forall i :: |Config.CURRENCY_SYMBOL| <= i < |r| && r[i] != '-' ==> (r[i] == ',' <==> (|r| - i) % 4 == 0))
  {
    var t := Decimal.GroupedDecimal(n);
    Decimal.GroupedDecimalCommas(n);
    var r := FormatCurrency(n);
    assert r == Config.CURRENCY_SYMBOL + t;
    forall i | 3 <= i < |r|
      ensures r[i] == t[i - 3] && |r| - i == |t| - (i - 3)
    {
    }
  }

  /** The text `parse_currency` hands to `float()`: every `"Rp "` and every
      comma deleted. */
  function CleanCurrency(s: string): (r: string)
    ensures |r| <= |s|
    ensures ',' !in r
    ensures forall i :: 0 <= i < |r| ==> r[i] in s
    ensures Config.CURRENCY_SYMBOL[0] !in s ==> r == PyStr.RemoveAll(s, ",")
    ensures Config.CURRENCY_SYMBOL[0] !in s ==> multiset(r) == multiset(s)[',' := 0]
  {
    var once := PyStr.RemoveAll(s, Config.CURRENCY_SYMBOL);
    PyStr.RemoveAllFrom(s, Config.CURRENCY_SYMBOL);
    PyStr.RemoveAllFrom(once, ",");
    PyStr.RemoveAllMultiset(once, ',');
    PyStr.RemoveAllAbsent(s, Config.CURRENCY_SYMBOL);
    PyStr.RemoveAll(once, ",")
  }

  /** `parse_currency`: the value of the cleaned text when `float()` reads it
      as a whole number (surrounding blanks allowed), otherwise 0. A bare
      digit string reads as its value, and so does one behind a sign, with
      `-` negating it. */
  function ParseCurrency(s: string): (r: int)
    ensures |s| >= 1 && Decimal.AllDigits(s) ==> r == Decimal.DigitsValue(s)
    ensures Decimal.SignedDigits(s) ==>
              r == if s[0] == '-' then 0 - Decimal.DigitsValue(s[1..]) else Decimal.DigitsValue(s[1..])
  {
    IntegerTextClean(s);
    match Decimal.ParseInteger(PyStr.FloatStrip(CleanCurrency(s)))
    case Some(n) => n
    case None => 0
  }

  /** A text without `R`, without commas and without blanks at its ends
      passes through the cleaning and the stripping unchanged. */
  lemma CleanUnchanged(s: string)
    requires Config.CURRENCY_SYMBOL[0] !in s && ',' !in s
    requires s == [] || (s[0] !in PyStr.FloatWhitespace && s[|s| - 1] !in PyStr.FloatWhitespace)
    ensures PyStr.FloatStrip(CleanCurrency(s)) == s
  {
    PyStr.RemoveAllAbsent(s, ",");
    PyStr.StripCharsKeepsClean(s, PyStr.FloatWhitespace);
  }

  /** A whole-number literal passes through the cleaning and the stripping
      unchanged. */
  lemma IntegerTextClean(s: string)
    ensures Decimal.IntegerText(s) ==> PyStr.FloatStrip(CleanCurrency(s)) == s
  {
    if Decimal.IntegerText(s) {
      assert Decimal.IsDigit(s[|s| - 1]);
      assert Config.CURRENCY_SYMBOL[0] !in s by {
        assert forall i :: 0 <= i < |s| ==> s[i] != 'R';
      }
      assert ',' !in s by {
        assert forall i :: 0 <= i < |s| ==> s[i] != ',';
      }
      Decimal.DigitNotWhitespace(s[|s| - 1]);
      if Decimal.IsDigit(s[0]) {
        Decimal.DigitNotWhitespace(s[0]);
      }
      CleanUnchanged(s);
    }
  }

  /** `float()` rejects anything but an optional sign followed by digits (after
      the symbol, the commas and the surrounding blanks are gone), and
      `parse_currency` then answers 0: a non-zero result comes only from such
      a text. */
  lemma ParseCurrencyNonzero(s: string)
    ensures var t := PyStr.FloatStrip(CleanCurrency(s));
            ParseCurrency(s) != 0 ==>
              && |t| >= 1
              && (t[0] == '-' || t[0] == '+' || Decimal.IsDigit(t[0]))
              && Decimal.AllDigits(t[1..])
              && Decimal.IsDigit(t[|t| - 1])
  {
  }

  /** A text that needs no cleaning but does not start with a sign or a digit,
      or does not end with a digit, reads as 0: for example `"x5"` or
      `"12abc"`. */
  lemma ParseCurrencyRejectsJunk(s: string)
    requires Config.CURRENCY_SYMBOL[0] !in s && ',' !in s && |s| >= 1
    requires s[0] !in PyStr.FloatWhitespace && s[|s| - 1] !in PyStr.FloatWhitespace
    requires !(s[0] == '-' || s[0] == '+' || Decimal.IsDigit(s[0])) || !Decimal.IsDigit(s[|s| - 1])
    ensures ParseCurrency(s) == 0
  {
    CleanUnchanged(s);
    ParseCurrencyNonzero(s);
  }

  /** The separators U+001C..U+001F count as whitespace for `str.isspace()`
      but not for `float()`: a text starting with one reads as 0, whatever
      follows. */
  lemma ParseCurrencySeparator(c: char, t: string)
    requires '\U{1C}' <= c <= '\U{1F}'
    ensures ParseCurrency([c] + t) == 0
  {
    CleanAfter([c], t);
    var clean := [c] + CleanCurrency(t);
    assert c !in PyStr.FloatWhitespace;
    PyStr.StripCharsKeepsFront(clean, PyStr.FloatWhitespace, 0);
    ParseCurrencyNonzero([c] + t);
  }

  /** A prefix with no `R` and no comma comes through the cleaning as it is. */
  lemma CleanAfter(w: string, t: string)
    requires Config.CURRENCY_SYMBOL[0] !in w && ',' !in w
    ensures CleanCurrency(w + t) == w + CleanCurrency(t)
  {
    PyStr.RemoveAllAfter(w, t, Config.CURRENCY_SYMBOL);
    PyStr.RemoveAllAfter(w, PyStr.RemoveAll(t, Config.CURRENCY_SYMBOL), ",");
  }

  /** A leading `"Rp "` is cut off before anything else happens. */
  lemma ParseCurrencyDropsSymbol(u: string)
    ensures ParseCurrency(Config.CURRENCY_SYMBOL + u) == ParseCurrency(u)
  {
    var s := Config.CURRENCY_SYMBOL + u;
    assert s[..|Config.CURRENCY_SYMBOL|] == Config.CURRENCY_SYMBOL;
    assert s[|Config.CURRENCY_SYMBOL|..] == u;
  }

  /** Deleting one comma from a text that holds no `R` does not change its
      reading. (With an `R` it can: `"R,p 5"` loses its comma only after the
      symbol was looked for, and reads as 0, while `"Rp 5"` reads as 5.) */
  lemma ParseCurrencyIgnoresComma(a: string, b: string)
    requires Config.CURRENCY_SYMBOL[0] !in a + b
    ensures ParseCurrency(a + "," + b) == ParseCurrency(a + b)
  {
    CommaFree(a, b);
  }

  /** Removing the commas of `a + "," + b` and of `a + b` gives the same text. */
  lemma CommaFree(a: string, b: string)
    ensures PyStr.RemoveAll(a + "," + b, ",") == PyStr.RemoveAll(a + b, ",")
  {
    PyStr.RemoveAllConcat(a + ",", b, ',');
    PyStr.RemoveAllConcat(a, ",", ',');
    PyStr.RemoveAllConcat(a, b, ',');
  }

  /** Blanks in front of the text are skipped by `float()`. */
  lemma ParseCurrencyIgnoresLeadingBlanks(w: string, t: string)
    requires forall i :: 0 <= i < |w| ==> w[i] in PyStr.FloatWhitespace
    ensures ParseCurrency(w + t) == ParseCurrency(t)
  {
    assert Config.CURRENCY_SYMBOL[0] !in w && ',' !in w;
    CleanAfter(w, t);
    PyStr.StripCharsDropsFront(w, CleanCurrency(t), PyStr.FloatWhitespace);
  }

  /** Blanks behind a text that holds no `R` are skipped by `float()`. (After
      an `R` they can complete a symbol: `"5Rp" + " "` reads as 5, while
      `"5Rp"` reads as 0.) */
  lemma ParseCurrencyIgnoresTrailingBlanks(t: string, v: string)
    requires Config.CURRENCY_SYMBOL[0] !in t
    requires forall i :: 0 <= i < |v| ==> v[i] in PyStr.FloatWhitespace
    ensures ParseCurrency(t + v) == ParseCurrency(t)
  {
    assert Config.CURRENCY_SYMBOL[0] !in t + v;
    assert ',' !in v;
    PyStr.RemoveAllConcat(t, v, ',');
    PyStr.RemoveAllAbsent(v, ",");
    PyStr.StripCharsDropsBack(PyStr.RemoveAll(t, ","), v, PyStr.FloatWhitespace);
  }

  /** Deleting the commas from a formatted amount leaves Python's `str(n)`. */
  lemma GroupedDecimalWithoutCommas(n: int)
    ensures PyStr.RemoveAll(Decimal.GroupedDecimal(n), ",") == Decimal.DecimalString(n)
  {
    if n < 0 {
      PyStr.RemoveAllConcat("-", Decimal.Grouped(-n), ',');
      PyStr.RemoveAllAbsent("-", ",");
      Decimal.GroupedWithoutCommas(-n);
    } else {
      Decimal.GroupedWithoutCommas(n);
    }
  }

  /** Cleaning a formatted amount leaves Python's `str(n)`. */
  lemma CleanFormatted(n: int)
    ensures CleanCurrency(FormatCurrency(n)) == Decimal.DecimalString(n)
  {
    var g := Decimal.GroupedDecimal(n);
    var sym := Config.CURRENCY_SYMBOL;
    assert 'R' !in g by {
      assert forall i :: 0 <= i < |g| ==> g[i] != 'R';
    }
    PyStr.RemoveAllAbsent(g, sym);
    assert (sym + g)[..|sym|] == sym;
    assert (sym + g)[|sym|..] == g;
    GroupedDecimalWithoutCommas(n);
  }

  /** `str(n)` has no surrounding whitespace for `float()` to skip. */
  lemma StripDecimal(n: int)
    ensures PyStr.FloatStrip(Decimal.DecimalString(n)) == Decimal.DecimalString(n)
  {
    var d := Decimal.DecimalString(n);
    assert Decimal.IsDigit(d[|d| - 1]);
    assert d[0] == '-' || Decimal.IsDigit(d[0]);
    PyStr.StripCharsKeepsClean(d, PyStr.FloatWhitespace);
  }

  /** Reading a formatted amount gives the amount back. */
  lemma CurrencyRoundTrip(n: int)
    ensures ParseCurrency(FormatCurrency(n)) == n
  {
    CleanFormatted(n);
    StripDecimal(n);
    Decimal.DecimalRoundTrip(n);
  }

  /** A text with no digit in it is unparsable and reads as 0. */
  lemma ParseCurrencyWithoutDigits(s: string)
    requires forall i :: 0 <= i < |s| ==> !Decimal.IsDigit(s[i])
    ensures ParseCurrency(s) == 0
  {
    var once := PyStr.RemoveAll(s, Config.CURRENCY_SYMBOL);
    PyStr.RemoveAllFrom(s, Config.CURRENCY_SYMBOL);
    var clean := CleanCurrency(s);
    PyStr.RemoveAllFrom(once, ",");
    var t := PyStr.FloatStrip(clean);
    PyStr.StripCharsSlice(clean, PyStr.FloatWhitespace);
    var k :| PyStr.TrimmedAt(t, clean, PyStr.FloatWhitespace, k);
    assert forall i :: 0 <= i < |t| ==> t[i] == clean[k + i];
  }
}

=== FILE: decimal.dfy ===
/**
  Base-ten rendering and parsing of integers: Python's `str(n)`, the
  thousands grouping of the `","` format specifier, and the sign-and-digits
  literals that `float()` reads back as whole numbers.
 */
module Decimal {
  import opened Results
  import PyStr

  predicate IsDigit(c: char) {
    '0' <= c <= '9'
  }

  /** No digit is whitespace. */
  lemma DigitNotWhitespace(c: char)
    requires IsDigit(c)
    ensures c !in PyStr.Whitespace
  {
  }

  predicate AllDigits(s: string) {
    forall i :: 0 <= i < |s| ==> IsDigit(s[i])
  }

  /** A `-` or `+` followed by one or more digits. */
  predicate SignedDigits(s: string) {
    |s| >= 2 && (s[0] == '-' || s[0] == '+') && AllDigits(s[1..])
  }

  /** The whole-number literals: one or more digits, with an optional sign. */
  predicate IntegerText(s: string) {
    (|s| >= 1 && AllDigits(s)) || SignedDigits(s)
  }

  function DigitChar(d: int): (c: char)
    requires 0 <= d < 10
    ensures IsDigit(c)
  {
    (48 + d) as char
  }

  function DigitValue(c: char): (d: nat)
    requires IsDigit(c)
    ensures d < 10
  {
    c as int - 48
  }

  /** The digits of `n` without leading zeros, most significant first. */
  function Digits(n: nat): (r: string)
    ensures |r| >= 1 && AllDigits(r)
    ensures r[0] == '0' ==> n == 0
  {
    if n < 10 then [DigitChar(n)] else Digits(n / 10) + [DigitChar(n % 10)]
  }

  /** The value of a digit string read most significant first. */
  function DigitsValue(s: string): nat
    requires AllDigits(s)
  {
    if s == [] then 0 else DigitsValue(s[..|s| - 1]) * 10 + DigitValue(s[|s| - 1])
  }

  /** A leading zero does not change the value: `"05"` reads as 5. */
  lemma {:induction false} DigitsValueLeadingZero(d: string)
    requires AllDigits(d)
    ensures AllDigits("0" + d) && DigitsValue("0" + d) == DigitsValue(d)
    decreases |d|
  {
    if d != [] {
      var s := "0" + d;
      assert s[..|s| - 1] == "0" + d[..|d| - 1];
      assert s[|s| - 1] == d[|d| - 1];
      DigitsValueLeadingZero(d[..|d| - 1]);
    }
  }

  /** Reading back the digits of `n` gives `n`. */
  lemma {:induction false} DigitsRoundTrip(n: nat)
    ensures DigitsValue(Digits(n)) == n
  {
    if n >= 10 {
      var d := Digits(n);
      assert d[..|d| - 1] == Digits(n / 10);
      DigitsRoundTrip(n / 10);
    }
  }

  /** Python's `str(n)` for an integer. */
  function DecimalString(n: int): (r: string)
    ensures |r| >= 1 && (r[0] == '-' <==> n < 0)
    ensures n >= 0 ==> AllDigits(r)
    ensures n < 0 ==> AllDigits(r[1..])
  {
    if n < 0 then "-" + Digits(-n) else Digits(n)
  }

  /** Three digits with leading zeros, the group written after each comma. */
  function Pad3(n: nat): (r: string)
    requires n < 1000
    ensures |r| == 3 && AllDigits(r)
  {
    [DigitChar(n / 100), DigitChar(n / 10 % 10), DigitChar(n % 10)]
  }

  /** Python's `format(n, ",")` for `n >= 0`: the digits of `n`, with a comma
      before every group of three counted from the right. */
  function Grouped(n: nat): (r: string)
    ensures |r| >= 1 && IsDigit(r[0])
    ensures forall i :: 0 <= i < |r| ==> IsDigit(r[i]) || r[i] == ','
  {
    if n < 1000 then Digits(n) else Grouped(n / 1000) + "," + Pad3(n % 1000)
  }

  /** Python's `format(n, ",")` for any integer: a minus sign, then the
      grouped magnitude. */
  function GroupedDecimal(n: int): (r: string)
    ensures |r| >= 1 && (r[0] == '-' <==> n < 0)
    ensures forall i :: 0 <= i < |r| ==> IsDigit(r[i]) || r[i] == ',' || (i == 0 && r[i] == '-')
  {
    if n < 0 then "-" + Grouped(-n) else Grouped(n)
  }

  /** Appending one digit to a positive number appends its character. */
  lemma DigitsAppend(q: nat, d: nat)
    requires q >= 1 && d < 10
    ensures Digits(q * 10 + d) == Digits(q) + [DigitChar(d)]
  {
    assert (q * 10 + d) / 10 == q;
    assert (q * 10 + d) % 10 == d;
  }

  /** A number below 1000 is its hundreds, tens and units digits. */
  lemma ThreeDigits(r: nat)
    requires r < 1000
    ensures r == (r / 100) * 100 + (r / 10 % 10) * 10 + r % 10
    ensures r / 100 < 10
  {
    assert r / 10 == (r / 100) * 10 + r / 10 % 10;
  }

  /** The digits of `q * 1000 + r` are those of `q` followed by the padded group `r`. */
  lemma DigitsSplit(q: nat, r: nat)
    requires q >= 1 && r < 1000
    ensures Digits(q * 1000 + r) == Digits(q) + Pad3(r)
  {
    var a, b, c := r / 100, r / 10 % 10, r % 10;
    ThreeDigits(r);
    var q1 := q * 10 + a;
    var q2 := q1 * 10 + b;
    DigitsAppend(q, a);
    DigitsAppend(q1, b);
    DigitsAppend(q2, c);
    assert q2 * 10 + c == q * 1000 + r;
    assert Digits(q) + [DigitChar(a)] + [DigitChar(b)] + [DigitChar(c)] == Digits(q) + Pad3(r);
  }

  /** Deleting the commas from the grouped form leaves the plain digits. */
  lemma {:induction false} GroupedWithoutCommas(n: nat)
    ensures PyStr.RemoveAll(Grouped(n), ",") == Digits(n)
  {
    if n < 1000 {
      PyStr.RemoveAllAbsent(Digits(n), ",");
    } else {
      GroupedWithoutCommas(n / 1000);
      PyStr.RemoveAllConcat(Grouped(n / 1000) + ",", Pad3(n % 1000), ',');
      PyStr.RemoveAllConcat(Grouped(n / 1000), ",", ',');
      PyStr.RemoveAllAbsent(Pad3(n % 1000), ",");
      assert PyStr.RemoveAll(",", ",") == [];
      DigitsSplit(n / 1000, n % 1000);
    }
  }

  /** A number below 1000 has at most three digits. */
  lemma DigitsShort(n: nat)
    requires n < 1000
    ensures |Digits(n)| <= 3
  {
    if n >= 10 {
      var m := n / 10;
      assert m < 100;
      assert |Digits(n)| == |Digits(m)| + 1;
      if m >= 10 {
        assert m / 10 < 10;
        assert |Digits(m)| == |Digits(m / 10)| + 1;
      }
    }
  }

  /** Commas at every fourth position from the right. */
  predicate CommasEveryFourth(r: string) {
    forall i :: 0 <= i < |r| ==> (r[i] == ',' <==> (|r| - i) % 4 == 0)
  }

  /** Appending a comma and a group of three digits keeps the commas at every
      fourth position. */
  lemma CommasAppendGroup(g: string, p: string)
    requires CommasEveryFourth(g)
    requires |p| == 3 && AllDigits(p)
    ensures CommasEveryFourth(g + "," + p)
  {
    var r := g + "," + p;
    forall i | 0 <= i < |r|
      ensures r[i] == ',' <==> (|r| - i) % 4 == 0
    {
      if i < |g| {
        assert r[i] == g[i];
        assert |r| - i == (|g| - i) + 4;
      } else if i > |g| {
        assert r[i] == p[i - |g| - 1];
        assert IsDigit(r[i]);
        assert 0 < |r| - i < 4;
      }
    }
  }

  /** The commas of the grouped form sit exactly at every fourth position
      counted from the right: each comma is followed by three digits. */
  lemma {:induction false} GroupedCommas(n: nat)
    ensures CommasEveryFourth(Grouped(n))
  {
    var r := Grouped(n);
    if n < 1000 {
      DigitsShort(n);
      forall i | 0 <= i < |r|
        ensures r[i] == ',' <==> (|r| - i) % 4 == 0
      {
        assert IsDigit(r[i]);
        assert 0 < |r| - i < 4;
      }
    } else {
      GroupedCommas(n / 1000);
      CommasAppendGroup(Grouped(n / 1000), Pad3(n % 1000));
    }
  }

  /** In the grouped form of either sign, only the first character may be a
      minus sign, and the commas sit at every fourth position from the right. */
  lemma GroupedDecimalCommas(n: int)
    ensures forall i :: 0 < i < |GroupedDecimal(n)| ==> GroupedDecimal(n)[i] != '-'
    ensures forall i :: 0 <= i < |GroupedDecimal(n)| && GroupedDecimal(n)[i] != '-' ==>
              (GroupedDecimal(n)[i] == ',' <==> (|GroupedDecimal(n)| - i) % 4 == 0)
  {
    if n < 0 {
      var g := Grouped(-n);
      GroupedCommas(-n);
      var t := GroupedDecimal(n);
      assert t == "-" + g;
      forall i | 1 <= i < |t|
        ensures t[i] == g[i - 1] && |t| - i == |g| - (i - 1)
      {
      }
    } else {
      GroupedCommas(n);
    }
  }

  /** A whole number written as an optional `+` or `-` and one or more ASCII
      digits; anything else is `None`. */
  function ParseInteger(s: string): (r: Option<int>)
    ensures r.Some? <==> IntegerText(s)
    ensures r.Some? ==> |s| >= 1 && AllDigits(s[1..]) && IsDigit(s[|s| - 1])
    ensures r.Some? ==> s[0] == '-' || s[0] == '+' || IsDigit(s[0])
    ensures r.Some? && r.value < 0 ==> s[0] == '-'
    ensures AllDigits(s) && |s| >= 1 ==> r.Some? && r.value >= 0
    ensures AllDigits(s) && |s| >= 1 ==> r == Some(DigitsValue(s))
    ensures SignedDigits(s) && s[0] == '+' ==> r == Some(DigitsValue(s[1..]))
    ensures SignedDigits(s) && s[0] == '-' ==> r == Some(0 - DigitsValue(s[1..]))
  {
    if |s| >= 2 && s[0] == '-' && AllDigits(s[1..]) then Some(0 - DigitsValue(s[1..]))
    else if |s| >= 2 && s[0] == '+' && AllDigits(s[1..]) then Some(DigitsValue(s[1..]))
    else if |s| >= 1 && AllDigits(s) then Some(DigitsValue(s))
    else None
  }

  /** `int(str(n)) == n`. */
  lemma DecimalRoundTrip(n: int)
    ensures ParseInteger(DecimalString(n)) == Some(n)
  {
    if n < 0 {
      var d := Digits(-n);
      var s := "-" + d;
      assert s[0] == '-' && s[1..] == d && |s| >= 2;
      DigitsRoundTrip(-n);
      assert ParseInteger(s) == Some(0 - DigitsValue(d));
    } else {
      var d := Digits(n);
      assert IsDigit(d[0]);
      DigitsRoundTrip(n);
      assert ParseInteger(d) == Some(DigitsValue(d));
    }
  }
}

=== FILE: models.dfy ===
/**
  The invoice data model (models.py): line items with a derived subtotal,
  invoices with a derived total, appending and guarded removal with
  renumbering, and the dictionary form used for serialisation.
 */
module Models {
  import opened Results
  import opened Config

  /** A dictionary value as the serialised forms use them. */
  datatype Value =
    | Int(i: int)
    | Str(s: string)
    | List(elems: seq<Value>)
    | Dict(fields: map<string, Value>)

  /** Why a dictionary does not describe a line item. */
  datatype DictError =
    | MissingKey(key: string)
    | WrongType(key: string)

  datatype LineItem = LineItem(number: int, description: string, amount: int, price: int) {

    /** `LineItem.subtotal`: the amount times the unit price, never negative
        when neither factor is. */
    function Subtotal(): (r: int)
      ensures amount >= 0 && price >= 0 ==> r >= 0
    {
      amount * price
    }
  }

  /** The keys `LineItem.from_dict` reads. */
  const LineItemKeys: set<string> := {"number", "description", "amount", "price"}

  /** `LineItem.to_dict`: the four fields plus the derived subtotal. */
  function LineItemToDict(li: LineItem): (d: map<string, Value>)
    ensures d.Keys == LineItemKeys + {"subtotal"}
    ensures d["subtotal"] == Int(li.amount * li.price)
  {
    map[
      "number" := Int(li.number),
      "description" := Str(li.description),
      "amount" := Int(li.amount),
      "price" := Int(li.price),
      "subtotal" := Int(li.Subtotal())
    ]
  }

  /** The keys `LineItem.from_dict` reads, in the order it reads them. */
  const FieldOrder: seq<string> := ["number", "description", "amount", "price"]

  /** `LineItem.from_dict`: reads the four fields in declaration order. A
      missing key fails with the first one missing, as Python's `KeyError`
      does. Once all four are present, a value not of the field's type is
      reported as well (Python would build the item regardless); every other
      key is ignored. */
  function LineItemFromDict(d: map<string, Value>): (r: Result<LineItem, DictError>)
    ensures r.Ok? <==>
      && "number" in d && d["number"].Int?
      && "description" in d && d["description"].Str?
      && "amount" in d && d["amount"].Int?
      && "price" in d && d["price"].Int?
    ensures r.Ok? ==> Int(r.value.number) == d["number"] && Str(r.value.description) == d["description"]
    ensures r.Ok? ==> Int(r.value.amount) == d["amount"] && Int(r.value.price) == d["price"]
    ensures r.Err? ==> r.error.key in LineItemKeys
    ensures (r.Err? && r.error.MissingKey?) <==> exists k :: k in LineItemKeys && k !in d
    ensures r.Err? && r.error.MissingKey? ==>
              exists j :: 0 <= j < |FieldOrder| && FieldOrder[j] == r.error.key && r.error.key !in d
                          && forall k :: 0 <= k < j ==> FieldOrder[k] in d
    ensures r.Err? && r.error.WrongType? ==> r.error.key in d
  {
    assert FieldOrder[0] == "number" && FieldOrder[1] == "description";
    assert FieldOrder[2] == "amount" && FieldOrder[3] == "price";
    if "number" !in d then Err(MissingKey("number"))
    else if "description" !in d then Err(MissingKey("description"))
    else if "amount" !in d then Err(MissingKey("amount"))
    else if "price" !in d then Err(MissingKey("price"))
    else if !d["number"].Int? then Err(WrongType("number"))
    else if !d["description"].Str? then Err(WrongType("description"))
    else if !d["amount"].Int? then Err(WrongType("amount"))
    else if !d["price"].Int? then Err(WrongType("price"))
    else Ok(LineItem(d["number"].i, d["description"].s, d["amount"].i, d["price"].i))
  }

  /** `from_dict(to_dict(li)) == li`. */
  lemma LineItemDictRoundTrip(li: LineItem)
    ensures LineItemFromDict(LineItemToDict(li)) == Ok(li)
  {
  }

  /** Keys other than the four fields (such as "subtotal") do not affect `from_dict`. */
  lemma LineItemFromDictIgnoresExtraKeys(d: map<string, Value>, k: string, v: Value)
    requires k !in LineItemKeys
    ensures LineItemFromDict(d[k := v]) == LineItemFromDict(d)
  {
  }

  /** Sum of the subtotals, accumulated left to right as Python's `sum` does. */
  function SumSubtotals(items: seq<LineItem>): (r: int)
    ensures items == [] ==> r == 0
    ensures (forall i :: 0 <= i < |items| ==> items[i].Subtotal() >= 0) ==> r >= 0
  {
    if items == [] then 0 else SumSubtotals(items[..|items| - 1]) + items[|items| - 1].Subtotal()
  }

  /** The sum over a concatenation is the sum of the sums. */
  lemma {:induction false} SumSubtotalsAppend(a: seq<LineItem>, b: seq<LineItem>)
    ensures SumSubtotals(a + b) == SumSubtotals(a) + SumSubtotals(b)
    decreases |b|
  {
    if b == [] {
      assert a + b == a;
    } else {
      assert (a + b)[..|a + b| - 1] == a + b[..|b| - 1];
      SumSubtotalsAppend(a, b[..|b| - 1]);
    }
  }

  /** The sum over `[x] + rest`, read from the front. */
  lemma SumSubtotalsCons(x: LineItem, rest: seq<LineItem>)
    ensures SumSubtotals([x] + rest) == x.Subtotal() + SumSubtotals(rest)
  {
    SumSubtotalsAppend([x], rest);
    assert [x][..0] == [];
  }

  /** Two item lists that agree on everything except the line numbers. */
  predicate SameEntries(a: seq<LineItem>, b: seq<LineItem>) {
    && |a| == |b|
    && forall i :: 0 <= i < |a| ==>
         a[i].description == b[i].description && a[i].amount == b[i].amount && a[i].price == b[i].price
  }

  /** The line numbers are exactly 1, 2, ..., n in order. */
  predicate NumberedFromOne(items: seq<LineItem>) {
    forall i :: 0 <= i < |items| ==> items[i].number == i + 1
  }

  /** Line numbers do not enter the total. */
  lemma {:induction false} SumSubtotalsIgnoresNumbers(a: seq<LineItem>, b: seq<LineItem>)
    requires SameEntries(a, b)
    ensures SumSubtotals(a) == SumSubtotals(b)
    decreases |a|
  {
    if a != [] {
      SumSubtotalsIgnoresNumbers(a[..|a| - 1], b[..|b| - 1]);
    }
  }

  /** `Invoice._renumber_items`: item i (0-based) gets number i + 1. */
  function Renumber(items: seq<LineItem>): (r: seq<LineItem>)
    ensures SameEntries(r, items)
    ensures NumberedFromOne(r)
  {
    seq(|items|, i requires 0 <= i < |items| => items[i].(number := i + 1))
  }

  /** Renumbering a list that is already numbered 1..n changes nothing. */
  lemma RenumberNumbered(items: seq<LineItem>)
    requires NumberedFromOne(items)
    ensures Renumber(items) == items
  {
  }

  /** Renumbering is idempotent. */
  lemma RenumberIdempotent(items: seq<LineItem>)
    ensures Renumber(Renumber(items)) == Renumber(items)
  {
    RenumberNumbered(Renumber(items));
  }

  datatype Invoice = Invoice(
    invoiceNumber: string,
    invoiceDate: string,
    customerName: string,
    customerAddress: string,
    lineItems: seq<LineItem>)
  {

    /** `Invoice.total`. */
    function Total(): (r: int)
      ensures lineItems == [] ==> r == 0
      ensures (forall i :: 0 <= i < |lineItems| ==> lineItems[i].amount >= 0 && lineItems[i].price >= 0) ==> r >= 0
    {
      SumSubtotals(lineItems)
    }

    /** `Invoice.add_line_item`: append at the end. */
    function AddLineItem(li: LineItem): (r: Invoice)
      ensures |r.lineItems| == |lineItems| + 1
      ensures r.lineItems[..|lineItems|] == lineItems && r.lineItems[|lineItems|] == li
      ensures r.(lineItems := lineItems) == this
      ensures r.Total() == Total() + li.Subtotal()
    {
      var r := this.(lineItems := lineItems + [li]);
      assert r.lineItems[..|lineItems|] == lineItems;
      r
    }

    /** Whether `remove_line_item(index)` goes ahead: the index is in range
        and at least two items are present. */
    predicate CanRemove(index: int) {
      0 <= index < |lineItems| && |lineItems| > 1
    }

    /** `Invoice.remove_line_item`: the updated invoice and whether an item
        was removed. A refused removal leaves the invoice untouched; a
        successful one drops item `index` and renumbers the survivors. */
    function RemoveLineItem(index: int): (r: (Invoice, bool))
      ensures r.1 <==> CanRemove(index)
      ensures !r.1 ==> r.0 == this
      ensures r.1 ==> |r.0.lineItems| == |lineItems| - 1
      ensures r.1 ==> SameEntries(r.0.lineItems, lineItems[..index] + lineItems[index + 1..])
      ensures r.1 ==> NumberedFromOne(r.0.lineItems)
      ensures r.0.(lineItems := lineItems) == this
      ensures |lineItems| >= 1 ==> |r.0.lineItems| >= 1
    {
      if CanRemove(index) then
        (this.(lineItems := Renumber(lineItems[..index] + lineItems[index + 1..])), true)
      else
        (this, false)
    }

    /** `Invoice.to_dict`: the header fields, the items' dictionaries in order,
        and the total. */
    function ToDict(): (d: map<string, Value>)
      ensures d.Keys == {"invoice_number", "invoice_date", "customer_name",
                         "customer_address", "line_items", "total"}
      ensures d["line_items"].List? && |d["line_items"].elems| == |lineItems|
      ensures forall i :: 0 <= i < |lineItems| ==>
                d["line_items"].elems[i] == Dict(LineItemToDict(lineItems[i]))
      ensures d["total"] == Int(Total())
      ensures d["invoice_number"] == Str(invoiceNumber) && d["invoice_date"] == Str(invoiceDate)
      ensures d["customer_name"] == Str(customerName) && d["customer_address"] == Str(customerAddress)
    {
      map[
        "invoice_number" := Str(invoiceNumber),
        "invoice_date" := Str(invoiceDate),
        "customer_name" := Str(customerName),
        "customer_address" := Str(customerAddress),
        "line_items" := List(seq(|lineItems|, i requires 0 <= i < |lineItems| =>
                               Dict(LineItemToDict(lineItems[i])))),
        "total" := Int(Total())
      ]
    }
  }

  /** Removing item `index` lowers the total by exactly that item's subtotal. */
  lemma RemoveLineItemTotal(inv: Invoice, index: int)
    requires inv.CanRemove(index)
    ensures inv.RemoveLineItem(index).0.Total() == inv.Total() - inv.lineItems[index].Subtotal()
  {
    var items := inv.lineItems;
    var rest := items[..index] + items[index + 1..];
    SumSubtotalsIgnoresNumbers(Renumber(rest), rest);
    SumSubtotalsAppend(items[..index], items[index + 1..]);
    assert items == items[..index] + ([items[index]] + items[index + 1..]);
    SumSubtotalsAppend(items[..index], [items[index]] + items[index + 1..]);
    SumSubtotalsCons(items[index], items[index + 1..]);
  }

  /** The "subtotal" entry of a serialised line item (0 when it has none). */
  function SubtotalEntry(v: Value): int {
    if v.Dict? && "subtotal" in v.fields && v.fields["subtotal"].Int? then v.fields["subtotal"].i else 0
  }

  /** Sum of the "subtotal" entries of a list of serialised line items. */
  function SumSubtotalEntries(vs: seq<Value>): int {
    if vs == [] then 0 else SumSubtotalEntries(vs[..|vs| - 1]) + SubtotalEntry(vs[|vs| - 1])
  }

  lemma {:induction false} SumSubtotalEntriesMatches(items: seq<LineItem>, vs: seq<Value>)
    requires |vs| == |items|
    requires forall i :: 0 <= i < |items| ==> vs[i] == Dict(LineItemToDict(items[i]))
    ensures SumSubtotalEntries(vs) == SumSubtotals(items)
    decreases |items|
  {
    if items != [] {
      SumSubtotalEntriesMatches(items[..|items| - 1], vs[..|vs| - 1]);
    }
  }

  /** In the serialised invoice, "total" is the sum of the items' "subtotal"
      entries, and every item dictionary reads back as the item it came from. */
  lemma InvoiceDictConsistent(inv: Invoice)
    ensures inv.ToDict()["total"] == Int(SumSubtotalEntries(inv.ToDict()["line_items"].elems))
    ensures forall i :: 0 <= i < |inv.lineItems| ==>
              LineItemFromDict(inv.ToDict()["line_items"].elems[i].fields) == Ok(inv.lineItems[i])
  {
    var d := inv.ToDict();
    SumSubtotalEntriesMatches(inv.lineItems, d["line_items"].elems);
  }

  /** `Invoice.create_default` with the clock reading passed in: `stamp` is
      the date rendered as `%Y%m%d`, `date` as `%Y-%m-%d`. */
  function CreateDefault(stamp: string, date: string): (inv: Invoice)
    ensures inv.invoiceNumber == "INV-" + stamp && inv.invoiceDate == date
    ensures inv.customerName == "" && inv.customerAddress == ""
    ensures |inv.lineItems| == 1 && NumberedFromOne(inv.lineItems)
    ensures inv.lineItems[0].description == "" && inv.lineItems[0].amount == DEFAULT_QUANTITY
    ensures inv.lineItems[0].price == 0
    ensures inv.Total() == 0
  {
    var items := [LineItem(1, "", DEFAULT_QUANTITY, 0)];
    assert items[..0] == [];
    assert items[0].Subtotal() == 0;
    assert SumSubtotals(items) == SumSubtotals([]) + items[0].Subtotal();
    Invoice("INV-" + stamp, date, "", "", items)
  }
}

=== FILE: pystr.dfy ===
/**
  The few Python `str` primitives the invoice code relies on, stated over
  `string` (a sequence of Unicode scalar values): `strip`, single-character
  `replace`, removal of every occurrence of a pattern, and prefix slicing
  with Python's negative-index rule.
 */
module PyStr {

  /** The code points for which Python's `str.isspace()` holds; `str.strip()`
      with no argument trims exactly these. */
  const Whitespace: set<char> := {
    '\t', '\n', '\U{0B}', '\U{0C}', '\r', '\U{1C}', '\U{1D}', '\U{1E}', '\U{1F}',
    ' ', '\U{85}', '\U{A0}', '\U{1680}',
    '\U{2000}', '\U{2001}', '\U{2002}', '\U{2003}', '\U{2004}', '\U{2005}',
    '\U{2006}', '\U{2007}', '\U{2008}', '\U{2009}', '\U{200A}',
    '\U{2028}', '\U{2029}', '\U{202F}', '\U{205F}', '\U{3000}'
  }

  /** The characters `float()` skips around a number. It first turns every
      non-ASCII whitespace character into a space and leaves ASCII alone,
      then trims only the six ASCII blanks `\t \n \v \f \r` and space, so
      the separators U+001C..U+001F, whitespace for `str.isspace()`, are not
      skipped. */
  const FloatWhitespace: set<char> := Whitespace - {'\U{1C}', '\U{1D}', '\U{1E}', '\U{1F}'}

  /** `r` occurs in `s` starting at offset `i`. */
  predicate SliceAt(r: string, s: string, i: int) {
    0 <= i <= |s| - |r| && s[i..i + |r|] == r
  }

  /** Python's `s.strip(chars)` with the characters given as a set: the
      leading and trailing characters that belong to `cs` are dropped. */
  function StripChars(s: string, cs: set<char>): (r: string)
    ensures |r| <= |s|
    decreases |s|
  {
    if |s| > 0 && s[0] in cs then StripChars(s[1..], cs)
    else if |s| > 0 && s[|s| - 1] in cs then StripChars(s[..|s| - 1], cs)
    else s
  }

  /** `r` is `s` with a run of characters of `cs` cut from the front and
      another from the back: `r` starts at offset `i` of `s`, and everything
      before and after it belongs to `cs`. */
  predicate TrimmedAt(r: string, s: string, cs: set<char>, i: int) {
    && SliceAt(r, s, i)
    && (forall k :: 0 <= k < i ==> s[k] in cs)
    && (forall k :: i + |r| <= k < |s| ==> s[k] in cs)
  }

  /** Putting a character of `cs` in front of a trimmed string keeps it trimmed. */
  lemma TrimmedAtCons(r: string, s: string, cs: set<char>, j: int)
    requires |s| > 0 && s[0] in cs && TrimmedAt(r, s[1..], cs, j)
    ensures TrimmedAt(r, s, cs, j + 1)
  {
    var t := s[1..];
    assert forall k :: 0 <= k < |r| ==> s[j + 1 + k] == t[j + k] == r[k];
    assert s[j + 1..j + 1 + |r|] == r;
    assert forall k :: 1 <= k < |s| ==> s[k] == t[k - 1];
  }

  /** Putting a character of `cs` at the back of a trimmed string keeps it trimmed. */
  lemma TrimmedAtSnoc(r: string, s: string, cs: set<char>, j: int)
    requires |s| > 0 && s[|s| - 1] in cs && TrimmedAt(r, s[..|s| - 1], cs, j)
    ensures TrimmedAt(r, s, cs, j)
  {
    var t := s[..|s| - 1];
    assert forall k :: 0 <= k < |r| ==> s[j + k] == t[j + k] == r[k];
    assert s[j..j + |r|] == r;
    assert forall k :: 0 <= k < |s| - 1 ==> s[k] == t[k];
  }

  /** What `strip` leaves is `s` with only characters of `cs` cut from its
      two ends. */
  lemma {:induction false} StripCharsSlice(s: string, cs: set<char>)
    ensures exists i :: TrimmedAt(StripChars(s, cs), s, cs, i)
    decreases |s|
  {
    var r := StripChars(s, cs);
    if |s| > 0 && s[0] in cs {
      StripCharsSlice(s[1..], cs);
      var j :| TrimmedAt(r, s[1..], cs, j);
      TrimmedAtCons(r, s, cs, j);
    } else if |s| > 0 && s[|s| - 1] in cs {
      StripCharsSlice(s[..|s| - 1], cs);
      var j :| TrimmedAt(r, s[..|s| - 1], cs, j);
      TrimmedAtSnoc(r, s, cs, j);
    } else {
      assert TrimmedAt(s, s, cs, 0);
    }
  }

  /** What `strip` leaves neither starts nor ends with a stripped character. */
  lemma {:induction false} StripCharsEnds(s: string, cs: set<char>)
    ensures StripChars(s, cs) == [] || (StripChars(s, cs)[0] !in cs && StripChars(s, cs)[|StripChars(s, cs)| - 1] !in cs)
    decreases |s|
  {
    if |s| > 0 && s[0] in cs {
      StripCharsEnds(s[1..], cs);
    } else if |s| > 0 && s[|s| - 1] in cs {
      StripCharsEnds(s[..|s| - 1], cs);
    }
  }

  /** `strip` leaves nothing exactly when every character is stripped. */
  lemma {:induction false} StripCharsEmpty(s: string, cs: set<char>)
    ensures StripChars(s, cs) == [] <==> forall i :: 0 <= i < |s| ==> s[i] in cs
    decreases |s|
  {
    if |s| > 0 && s[0] in cs {
      StripCharsEmpty(s[1..], cs);
      assert forall i :: 1 <= i < |s| ==> s[i] == s[1..][i - 1];
    } else if |s| > 0 && s[|s| - 1] in cs {
      StripCharsEmpty(s[..|s| - 1], cs);
      assert forall i :: 0 <= i < |s| - 1 ==> s[i] == s[..|s| - 1][i];
    }
  }

  /** When `s` starts with a kept character, `strip` only trims the end: it
      keeps a prefix of `s` that reaches past every kept character `s[j]`,
      and drops only stripped characters. */
  lemma {:induction false} StripCharsKeepsFront(s: string, cs: set<char>, j: int)
    requires 0 <= j < |s| && s[0] !in cs && s[j] !in cs
    ensures |StripChars(s, cs)| > j && StripChars(s, cs) == s[..|StripChars(s, cs)|]
    ensures forall i :: |StripChars(s, cs)| <= i < |s| ==> s[i] in cs
    decreases |s|
  {
    if s[|s| - 1] in cs {
      var t := s[..|s| - 1];
      assert t[0] == s[0] && t[j] == s[j];
      StripCharsKeepsFront(t, cs, j);
      var r := StripChars(t, cs);
      assert t[..|r|] == s[..|r|];
    }
  }

  /** Python's `s.strip()`. */
  function Strip(s: string): string {
    StripChars(s, Whitespace)
  }

  /** The trimming `float()` does before reading a number. */
  function FloatStrip(s: string): string {
    StripChars(s, FloatWhitespace)
  }

  /** Every character is whitespace (the empty string included). */
  predicate IsBlank(s: string) {
    forall i :: 0 <= i < |s| ==> s[i] in Whitespace
  }

  /** `not s.strip()` holds exactly for the blank strings. */
  lemma StripEmptyIffBlank(s: string)
    ensures Strip(s) == [] <==> IsBlank(s)
  {
    StripCharsEmpty(s, Whitespace);
  }

  /** Stripping a string that already has no strippable end is the identity. */
  lemma {:induction false} StripCharsKeepsClean(s: string, cs: set<char>)
    requires s == [] || (s[0] !in cs && s[|s| - 1] !in cs)
    ensures StripChars(s, cs) == s
  {
  }

  /** Stripped characters in front of `u` make no difference to `strip`. */
  lemma {:induction false} StripCharsDropsFront(w: string, u: string, cs: set<char>)
    requires forall i :: 0 <= i < |w| ==> w[i] in cs
    ensures StripChars(w + u, cs) == StripChars(u, cs)
    decreases |w|
  {
    if w == [] {
      assert w + u == u;
    } else {
      assert (w + u)[1..] == w[1..] + u;
      StripCharsDropsFront(w[1..], u, cs);
    }
  }

  /** Stripped characters behind `u` make no difference to `strip`. */
  lemma {:induction false} StripCharsDropsBack(u: string, v: string, cs: set<char>)
    requires forall i :: 0 <= i < |v| ==> v[i] in cs
    ensures StripChars(u + v, cs) == StripChars(u, cs)
    decreases |u| + |v|
  {
    if v == [] {
      assert u + v == u;
    } else if u == [] {
      assert u + v == v;
      StripCharsEmpty(v, cs);
    } else if u[0] in cs {
      assert (u + v)[1..] == u[1..] + v;
      StripCharsDropsBack(u[1..], v, cs);
    } else {
      var w := v[..|v| - 1];
      assert (u + v)[..|u + v| - 1] == u + w;
      StripCharsDropsBack(u, w, cs);
    }
  }

  /** Python's `s.replace(a, b)` for single characters `a` and `b`. */
  function ReplaceChar(s: string, a: char, b: char): (r: string)
    ensures |r| == |s|
    ensures forall i :: 0 <= i < |s| ==> r[i] == (if s[i] == a then b else s[i])
  {
    if s == [] then [] else [if s[0] == a then b else s[0]] + ReplaceChar(s[1..], a, b)
  }

  /** Python's `s.replace(pat, "")`: a left-to-right scan that deletes each
      non-overlapping occurrence of `pat`. */
  function RemoveAll(s: string, pat: string): (r: string)
    requires |pat| > 0
    ensures |r| <= |s|
    ensures |pat| == 1 ==> pat[0] !in r
    decreases |s|
  {
    if |s| < |pat| then s
    else if s[..|pat|] == pat then RemoveAll(s[|pat|..], pat)
    else [s[0]] + RemoveAll(s[1..], pat)
  }

  /** Removal leaves a string alone when the pattern's first character never occurs. */
  lemma {:induction false} RemoveAllAbsent(s: string, pat: string)
    requires |pat| > 0
    ensures pat[0] !in s ==> RemoveAll(s, pat) == s
    decreases |s|
  {
    if pat[0] !in s {
      if |s| < |pat| {
        assert |pat| == 1 ==> s == [];
      } else {
        assert s[..|pat|][0] == s[0];
        assert s[..|pat|] != pat;
        RemoveAllAbsent(s[1..], pat);
        assert s == [s[0]] + s[1..];
      }
    }
  }

  /** No occurrence of `pat` can start inside a prefix `w` that lacks its
      first character, so removal passes `w` through untouched. */
  lemma {:induction false} RemoveAllAfter(w: string, t: string, pat: string)
    requires |pat| > 0
    requires pat[0] !in w
    ensures RemoveAll(w + t, pat) == w + RemoveAll(t, pat)
    decreases |w|
  {
    if w == [] {
      assert w + t == t;
    } else if |w + t| < |pat| {
      assert RemoveAll(t, pat) == t;
    } else {
      assert (w + t)[..|pat|][0] == w[0];
      assert (w + t)[1..] == w[1..] + t;
      RemoveAllAfter(w[1..], t, pat);
      assert w + RemoveAll(t, pat) == [w[0]] + (w[1..] + RemoveAll(t, pat));
    }
  }

  /** Deleting a single character distributes over concatenation. */
  lemma {:induction false} RemoveAllConcat(a: string, b: string, c: char)
    ensures RemoveAll(a + b, [c]) == RemoveAll(a, [c]) + RemoveAll(b, [c])
    decreases |a|
  {
    if a == [] {
      assert a + b == b;
    } else {
      assert (a + b)[..1] == a[..1];
      assert (a + b)[1..] == a[1..] + b;
      RemoveAllConcat(a[1..], b, c);
    }
  }

  /** Deleting a single character keeps every other character, each as
      often as before. */
  lemma {:induction false} RemoveAllMultiset(s: string, c: char)
    ensures multiset(RemoveAll(s, [c])) == multiset(s)[c := 0]
    decreases |s|
  {
    if s != [] {
      assert s == [s[0]] + s[1..];
      RemoveAllMultiset(s[1..], c);
      if s[..1] == [c] {
        assert s[0] == c;
        assert multiset(s) == multiset{c} + multiset(s[1..]);
      } else {
        assert s[0] != c;
        assert multiset(s) == multiset{s[0]} + multiset(s[1..]);
      }
    }
  }

  /** Removal only deletes characters: whatever is left comes from `s`. */
  lemma {:induction false} RemoveAllFrom(s: string, pat: string)
    requires |pat| > 0
    ensures forall i :: 0 <= i < |RemoveAll(s, pat)| ==> RemoveAll(s, pat)[i] in s
    decreases |s|
  {
    if |s| >= |pat| {
      if s[..|pat|] == pat {
        RemoveAllFrom(s[|pat|..], pat);
        assert forall c :: c in s[|pat|..] ==> c in s;
      } else {
        RemoveAllFrom(s[1..], pat);
        assert forall c :: c in s[1..] ==> c in s;
      }
    }
  }

  /** Python's prefix slice `s[:k]`, where a negative `k` counts from the end. */
  function PrefixSlice(s: string, k: int): (r: string)
    ensures |r| <= |s| && r == s[..|r|]
    ensures k >= 0 ==> |r| == (if k <= |s| then k else |s|)
    ensures k < 0 ==> |r| == (if |s| + k >= 0 then |s| + k else 0)
  {
    if k >= 0 then (if k <= |s| then s[..k] else s)
    else if |s| + k >= 0 then s[..|s| + k]
    else []
  }
}

=== FILE: results.dfy ===
/** Optional values and error-carrying results used across the model. */
module Results {

  /** A value that may be absent. */
  datatype Option<+T> = None | Some(value: T)

  /** A computation that either produced a value or failed with an error. */
  datatype Result<+T, +E> = Ok(value: T) | Err(error: E)
}

=== FILE: utils.dfy ===
/**
  The string helpers of utils.py: filename sanitising, truncation with a
  suffix, the default PDF file name of an invoice, and the rendering of a
  list of validation errors as one message.
 */
module Utils {
  import PyStr
  import Decimal

  /** The characters `get_safe_filename` replaces, in the order it replaces them. */
  const InvalidChars: string := "<>:\"/\\|?*"

  /** The characters `get_safe_filename` strips from both ends. */
  const EdgeChars: set<char> := {' ', '.'}

  /** The name used when nothing is left after sanitising. */
  const FallbackName: string := "invoice"

  /** `s.replace(c, b)` for each character `c` of `chars` in turn: the loop
      of `get_safe_filename`. */
  function ReplaceEach(s: string, chars: string, b: char): (r: string)
    ensures |r| == |s|
    decreases |chars|
  {
    if chars == [] then s else ReplaceEach(PyStr.ReplaceChar(s, chars[0], b), chars[1..], b)
  }

  /** When `b` is not itself replaced, the loop turns each character of
      `chars` into `b` and keeps every other character. */
  lemma {:induction false} ReplaceEachPointwise(s: string, chars: string, b: char)
    requires b !in chars
    ensures forall i :: 0 <= i < |s| ==> ReplaceEach(s, chars, b)[i] == (if s[i] in chars then b else s[i])
    decreases |chars|
  {
    if chars != [] {
      var once := PyStr.ReplaceChar(s, chars[0], b);
      ReplaceEachPointwise(once, chars[1..], b);
      assert forall i :: 0 <= i < |s| ==> (s[i] in chars <==> s[i] == chars[0] || s[i] in chars[1..]);
    }
  }

  /** The name with every invalid character turned into `_`. */
  function Sanitized(filename: string): (r: string)
    ensures |r| == |filename|
    ensures forall i :: 0 <= i < |r| ==> r[i] !in InvalidChars
    ensures forall i :: 0 <= i < |r| ==> r[i] == '_' || r[i] == filename[i]
  {
    seq(|filename|, i requires 0 <= i < |filename| => if filename[i] in InvalidChars then '_' else filename[i])
  }

  /** The replacement loop computes `Sanitized`. */
  lemma SanitizedIsReplaceLoop(filename: string)
    ensures ReplaceEach(filename, InvalidChars, '_') == Sanitized(filename)
  {
    ReplaceEachPointwise(filename, InvalidChars, '_');
  }

  /** `get_safe_filename`. */
  function SafeFilename(filename: string): (r: string)
    ensures |r| > 0
    ensures forall i :: 0 <= i < |r| ==> r[i] !in InvalidChars
    ensures r[0] !in EdgeChars && r[|r| - 1] !in EdgeChars
  {
    var replaced := Sanitized(filename);
    var stripped := PyStr.StripChars(replaced, EdgeChars);
    PyStr.StripCharsEnds(replaced, EdgeChars);
    PyStr.StripCharsSlice(replaced, EdgeChars);
    var k :| PyStr.TrimmedAt(stripped, replaced, EdgeChars, k);
    assert forall i :: 0 <= i < |stripped| ==> stripped[i] == replaced[k + i];
    if stripped == [] then FallbackName else stripped
  }

  /** The fallback is taken exactly when the name consists of spaces and dots
      only; otherwise the result is the sanitised name with only spaces and
      dots cut from its two ends. */
  lemma SafeFilenameFallback(filename: string)
    ensures (forall i :: 0 <= i < |filename| ==> filename[i] in EdgeChars) ==> SafeFilename(filename) == FallbackName
    ensures (exists i :: 0 <= i < |filename| && filename[i] !in EdgeChars) ==>
              exists k :: PyStr.TrimmedAt(SafeFilename(filename), Sanitized(filename), EdgeChars, k)
  {
    var replaced := Sanitized(filename);
    PyStr.StripCharsEmpty(replaced, EdgeChars);
    PyStr.StripCharsSlice(replaced, EdgeChars);
    assert forall i :: 0 <= i < |filename| ==> (replaced[i] in EdgeChars <==> filename[i] in EdgeChars);
    var stripped := PyStr.StripChars(replaced, EdgeChars);
    if stripped != [] {
      var k :| PyStr.TrimmedAt(stripped, replaced, EdgeChars, k);
      assert SafeFilename(filename) == stripped;
      assert PyStr.TrimmedAt(SafeFilename(filename), replaced, EdgeChars, k);
    }
  }

  /** Every character of the result is `_`, a character of the name, or one
      of the fallback name. */
  lemma SafeFilenameDrawsFrom(filename: string)
    ensures forall i :: 0 <= i < |SafeFilename(filename)| ==>
              SafeFilename(filename)[i] == '_' || SafeFilename(filename)[i] in filename || SafeFilename(filename)[i] in FallbackName
  {
    var replaced := Sanitized(filename);
    var r := SafeFilename(filename);
    if r != FallbackName {
      PyStr.StripCharsSlice(replaced, EdgeChars);
      var k :| PyStr.TrimmedAt(r, replaced, EdgeChars, k);
      assert forall i :: 0 <= i < |r| ==> r[i] == replaced[k + i];
    }
  }

  /** Sanitising a name that is already safe changes nothing. */
  lemma SafeFilenameIdempotent(filename: string)
    ensures SafeFilename(SafeFilename(filename)) == SafeFilename(filename)
  {
    var r := SafeFilename(filename);
    assert Sanitized(r) == r;
    PyStr.StripCharsKeepsClean(r, EdgeChars);
  }

  /** `truncate_text`: text longer than `maxLength` is cut so that, with the
      suffix added, it is `maxLength` long; when the suffix alone does not
      fit, Python's `suffix[:max_length]` is returned (which counts from the
      end for a negative `maxLength`). */
  function TruncateText(text: string, maxLength: int, suffix: string): (r: string)
    ensures |text| <= maxLength ==> r == text
    ensures |text| > maxLength && maxLength > |suffix| ==>
              |r| == maxLength && r[..maxLength - |suffix|] == text[..maxLength - |suffix|]
              && r[maxLength - |suffix|..] == suffix
    ensures |text| > maxLength && 0 <= maxLength <= |suffix| ==> r == suffix[..maxLength]
    ensures |text| > maxLength && maxLength < 0 ==>
              r == suffix[..if |suffix| + maxLength >= 0 then |suffix| + maxLength else 0]
  {
    if |text| <= maxLength then text
    else
      var truncateAt := maxLength - |suffix|;
      if truncateAt <= 0 then PyStr.PrefixSlice(suffix, maxLength)
      else text[..truncateAt] + suffix
  }

  /** With a non-negative limit the result never exceeds it, so truncating
      again changes nothing. */
  lemma TruncateTextIdempotent(text: string, maxLength: int, suffix: string)
    requires maxLength >= 0
    ensures |TruncateText(text, maxLength, suffix)| <= maxLength
    ensures TruncateText(TruncateText(text, maxLength, suffix), maxLength, suffix) == TruncateText(text, maxLength, suffix)
  {
  }

  /** `FileManager.get_default_invoice_filename`. */
  function DefaultInvoiceFilename(invoiceNumber: string): (r: string)
    ensures |r| > 12 && r[..8] == "Invoice_" && r[|r| - 4..] == ".pdf"
    ensures forall i :: 8 <= i < |r| - 4 ==> r[i] != '-' && r[i] !in InvalidChars
  {
    var dashless := PyStr.ReplaceChar(invoiceNumber, '-', '_');
    var safe := SafeFilename(dashless);
    SafeFilenameDrawsFrom(dashless);
    assert '-' !in dashless;
    assert '-' !in FallbackName;
    var r := "Invoice_" + safe + ".pdf";
    assert forall i :: 8 <= i < |r| - 4 ==> r[i] == safe[i - 8];
    r
  }

  /** A name that is already safe is returned as it is. */
  lemma SafeFilenameClean(d: string)
    requires d != [] && forall i :: 0 <= i < |d| ==> d[i] !in InvalidChars
    requires d[0] !in EdgeChars && d[|d| - 1] !in EdgeChars
    ensures SafeFilename(d) == d
  {
    assert Sanitized(d) == d;
    PyStr.StripCharsKeepsClean(d, EdgeChars);
  }

  /** Turning dashes into underscores keeps a clean number clean. */
  lemma DashlessClean(n: string)
    requires n != [] && forall i :: 0 <= i < |n| ==> n[i] !in InvalidChars
    requires n[0] !in EdgeChars && n[|n| - 1] !in EdgeChars
    ensures var d := PyStr.ReplaceChar(n, '-', '_');
            d != [] && (forall i :: 0 <= i < |d| ==> d[i] !in InvalidChars)
            && d[0] !in EdgeChars && d[|d| - 1] !in EdgeChars
  {
  }

  /** An invoice number that needs no sanitising keeps its characters in the
      file name, with each `-` turned into `_`: `"INV-20240101"` gives
      `"Invoice_INV_20240101.pdf"`. */
  lemma DefaultInvoiceFilenameOf(n: string)
    requires n != [] && forall i :: 0 <= i < |n| ==> n[i] !in InvalidChars
    requires n[0] !in EdgeChars && n[|n| - 1] !in EdgeChars
    ensures DefaultInvoiceFilename(n) == "Invoice_" + PyStr.ReplaceChar(n, '-', '_') + ".pdf"
  {
    DashlessClean(n);
    SafeFilenameClean(PyStr.ReplaceChar(n, '-', '_'));
  }

  /** The line `format_validation_errors` writes for the k-th error. */
  function NumberedLine(k: int, error: string): string {
    Decimal.DecimalString(k) + ". " + error + "\n"
  }

  /** The lines written for `errors`, the first numbered `first`. */
  function Lines(errors: seq<string>, first: int): (r: seq<string>)
    ensures |r| == |errors|
  {
    seq(|errors|, i requires 0 <= i < |errors| => NumberedLine(first + i, errors[i]))
  }

  /** The strings of `ss` joined end to end. */
  function Concat(ss: seq<string>): string
    decreases |ss|
  {
    if ss == [] then "" else ss[0] + Concat(ss[1..])
  }

  /** Joining one more string appends it. */
  lemma {:induction false} ConcatSnoc(ss: seq<string>, x: string)
    ensures Concat(ss + [x]) == Concat(ss) + x
    decreases |ss|
  {
    if ss == [] {
      assert ss + [x] == [x];
      assert [x][1..] == [];
      assert x + "" == x;
    } else {
      assert (ss + [x])[0] == ss[0];
      assert (ss + [x])[1..] == ss[1..] + [x];
      ConcatSnoc(ss[1..], x);
      var p := Concat(ss[1..]);
      assert ss[0] + (p + x) == (ss[0] + p) + x;
    }
  }

  /** The numbered lines of `errors`, the first numbered `first`. */
  function NumberedLines(errors: seq<string>, first: int): string {
    Concat(Lines(errors, first))
  }

  /** The lines start with the first number, a digit or a minus sign. */
  lemma NumberedLinesStart(errors: seq<string>, first: int)
    requires errors != []
    ensures |NumberedLines(errors, first)| > 0
    ensures NumberedLines(errors, first)[0] == Decimal.DecimalString(first)[0]
  {
    var ss := Lines(errors, first);
    var d := Decimal.DecimalString(first);
    assert ss[0] == d + (". " + errors[0] + "\n");
    assert NumberedLines(errors, first) == ss[0] + Concat(ss[1..]);
  }

  /** Appending one error appends its line: the loop's `formatted += ...`. */
  lemma NumberedLinesSnoc(errors: seq<string>, e: string, first: int)
    ensures NumberedLines(errors + [e], first) == NumberedLines(errors, first) + NumberedLine(first + |errors|, e)
  {
    var last := NumberedLine(first + |errors|, e);
    var all, before := Lines(errors + [e], first), Lines(errors, first);
    forall i | 0 <= i < |errors|
      ensures all[i] == before[i]
    {
      assert (errors + [e])[i] == errors[i];
    }
    assert all[|errors|] == last;
    assert all == before + [last];
    ConcatSnoc(Lines(errors, first), last);
  }

  const ErrorsHeader: string := "The following issues were found:\n"

  /** `format_validation_errors`. */
  function FormatValidationErrors(errors: seq<string>): (r: string)
    ensures errors == [] ==> r == ""
    ensures |errors| == 1 ==> r == errors[0]
  {
    if errors == [] then ""
    else if |errors| == 1 then errors[0]
    else PyStr.Strip(ErrorsHeader + NumberedLines(errors, 1))
  }

  /** Two or more errors give the header followed by the numbered lines, of
      which exactly the trailing whitespace is cut: the final newline, and
      the trailing blanks of the last error. */
  lemma FormatValidationErrorsList(errors: seq<string>)
    requires |errors| >= 2
    ensures var full := ErrorsHeader + NumberedLines(errors, 1);
            var r := FormatValidationErrors(errors);
            |ErrorsHeader| < |r| <= |full| && r == full[..|r|]
            && r[..|ErrorsHeader|] == ErrorsHeader
            && r[|r| - 1] !in PyStr.Whitespace
            && forall i :: |r| <= i < |full| ==> full[i] in PyStr.Whitespace
  {
    var full := ErrorsHeader + NumberedLines(errors, 1);
    var j := |ErrorsHeader|;
    assert full[0] == 'T';
    NumberedLinesStart(errors, 1);
    assert full[j] == NumberedLines(errors, 1)[0];
    PyStr.StripCharsKeepsFront(full, PyStr.Whitespace, j);
    PyStr.StripCharsEnds(full, PyStr.Whitespace);
    var r := FormatValidationErrors(errors);
    assert r[..j] == full[..j];
  }
}

=== FILE: validation.dfy ===
/**
  `InvoiceValidator` (models.py): turns a line item or an invoice into the
  ordered list of error messages it violates, using the bounds of config.py.

  The checks first produce `Issue` values; `Message` renders each one as the
  exact text the validator appends.
 */
module Validation {
  import opened Config
  import opened Models
  import PyStr
  import Decimal

  /** One reason for rejecting an item or an invoice. */
  datatype Issue =
    | DescriptionEmpty
    | AmountBelowMin
    | AmountAboveMax
    | PriceNegative
    | PriceAboveMax
    | InvoiceNumberEmpty
    | CustomerNameEmpty
    | NoLineItems
    | OnLine(line: int, issue: Issue)

  /** The text the validator appends for an issue; an item's issue found on
      line n is prefixed "Line n: ". The bounds appear as `str()` renders them
      (see `BoundTexts`). */
  function Message(i: Issue): (r: string)
    ensures |r| > 0 && (r[0] == 'L' <==> i.OnLine?)
  {
    match i
    case DescriptionEmpty => "Description cannot be empty"
    case AmountBelowMin => "Amount must be at least " + "1"
    case AmountAboveMax => "Amount cannot exceed " + "999"
    case PriceNegative => "Price cannot be negative"
    case PriceAboveMax => "Price cannot exceed " + "999999999"
    case InvoiceNumberEmpty => "Invoice number cannot be empty"
    case CustomerNameEmpty => "Customer name cannot be empty"
    case NoLineItems => "Invoice must have at least one line item"
    case OnLine(n, inner) => LinePrefix(n) + Message(inner)
  }

  /** The bound texts in the messages are the f-string renderings of the
      configured bounds. */
  lemma BoundTexts()
    ensures Message(AmountBelowMin) == "Amount must be at least " + Decimal.DecimalString(MIN_QUANTITY)
    ensures Message(AmountAboveMax) == "Amount cannot exceed " + Decimal.DecimalString(MAX_QUANTITY)
    ensures Message(PriceAboveMax) == "Price cannot exceed " + Decimal.DecimalString(MAX_PRICE)
  {
  }

  /** The "Line n: " prefix put before an item's messages. */
  function LinePrefix(n: int): string {
    "Line " + Decimal.DecimalString(n) + ": "
  }

  function Messages(issues: seq<Issue>): (errors: seq<string>)
    ensures |errors| == |issues|
    ensures forall i :: 0 <= i < |issues| ==> errors[i] == Message(issues[i])
  {
    seq(|issues|, i requires 0 <= i < |issues| => Message(issues[i]))
  }

  /** The issues a single line item can raise. */
  predicate IsItemIssue(i: Issue) {
    i.DescriptionEmpty? || i.AmountBelowMin? || i.AmountAboveMax? || i.PriceNegative? || i.PriceAboveMax?
  }

  /** Position of an item issue in the order the checks run. */
  function CheckRank(i: Issue): int {
    match i
    case DescriptionEmpty => 0
    case AmountBelowMin => 1
    case AmountAboveMax => 2
    case PriceNegative => 3
    case _ => 4
  }

  /** Different item issues are worded differently, so the text identifies the issue. */
  lemma ItemMessagesDistinct(a: Issue, b: Issue)
    requires IsItemIssue(a) && IsItemIssue(b) && a != b
    ensures Message(a) != Message(b)
  {
  }

  /** What a line item must satisfy, stated independently of the checks. */
  predicate ValidLineItem(li: LineItem) {
    && !PyStr.IsBlank(li.description)
    && MIN_QUANTITY <= li.amount <= MAX_QUANTITY
    && 0 <= li.price <= MAX_PRICE
  }

  /** What an invoice must satisfy, stated independently of the checks. */
  predicate ValidInvoice(inv: Invoice) {
    && !PyStr.IsBlank(inv.invoiceNumber)
    && !PyStr.IsBlank(inv.customerName)
    && |inv.lineItems| >= 1
    && forall i :: 0 <= i < |inv.lineItems| ==> ValidLineItem(inv.lineItems[i])
  }

  /** One `if condition: errors.append(message)` step of a validator: the
      issue when its check fails, otherwise nothing. */
  function When(failed: bool, issue: Issue): (r: seq<Issue>)
    ensures |r| <= 1
    ensures issue in r <==> failed
    ensures forall x :: x in r ==> x == issue
  {
    if failed then [issue] else []
  }

  /** The issues `validate_line_item` reports, in the order its checks run. */
  function LineItemIssues(li: LineItem): (issues: seq<Issue>)
    ensures issues == [] <==> ValidLineItem(li)
  {
    PyStr.StripEmptyIffBlank(li.description);
    When(PyStr.Strip(li.description) == [], DescriptionEmpty)
    + When(li.amount < MIN_QUANTITY, AmountBelowMin)
    + When(li.amount > MAX_QUANTITY, AmountAboveMax)
    + When(li.price < 0, PriceNegative)
    + When(li.price > MAX_PRICE, PriceAboveMax)
  }

  /** Each issue of an item is reported exactly when its condition holds. */
  lemma LineItemIssuesReport(li: LineItem)
    ensures DescriptionEmpty in LineItemIssues(li) <==> PyStr.IsBlank(li.description)
    ensures AmountBelowMin in LineItemIssues(li) <==> li.amount < MIN_QUANTITY
    ensures AmountAboveMax in LineItemIssues(li) <==> li.amount > MAX_QUANTITY
    ensures PriceNegative in LineItemIssues(li) <==> li.price < 0
    ensures PriceAboveMax in LineItemIssues(li) <==> li.price > MAX_PRICE
  {
    PyStr.StripEmptyIffBlank(li.description);
  }

  /** Every issue of an item is one of the five item issues, and at most
      three are reported at once: the amount and the price can each fail only
      one of their two bounds. */
  lemma LineItemIssuesShape(li: LineItem)
    ensures |LineItemIssues(li)| <= 3
    ensures forall x :: x in LineItemIssues(li) ==> IsItemIssue(x)
  {
  }

  /** The issues of an item come in the order of the checks. */
  lemma LineItemIssuesOrdered(li: LineItem)
    ensures forall i :: 0 <= i < |LineItemIssues(li)| - 1 ==>
              CheckRank(LineItemIssues(li)[i]) < CheckRank(LineItemIssues(li)[i + 1])
  {
  }

  /** `InvoiceValidator.validate_line_item`. */
  function ValidateLineItem(li: LineItem): (errors: seq<string>)
    ensures errors == [] <==> ValidLineItem(li)
    ensures |errors| <= 3
    ensures |errors| == |LineItemIssues(li)|
    ensures forall i :: 0 <= i < |errors| ==> errors[i] == Message(LineItemIssues(li)[i])
  {
    Messages(LineItemIssues(li))
  }

  /** Each message of `validate_line_item` is reported exactly when its check fails. */
  lemma ValidateLineItemReports(li: LineItem, issue: Issue)
    requires IsItemIssue(issue)
    ensures Message(issue) in ValidateLineItem(li) <==> issue in LineItemIssues(li)
  {
    var issues := LineItemIssues(li);
    var errors := ValidateLineItem(li);
    if Message(issue) in errors {
      var k :| 0 <= k < |errors| && errors[k] == Message(issue);
      if issues[k] != issue {
        LineItemIssuesShape(li);
        ItemMessagesDistinct(issues[k], issue);
      }
    }
    if issue in issues {
      var k :| 0 <= k < |issues| && issues[k] == issue;
      assert errors[k] == Message(issue);
    }
  }

  /** A valid item's subtotal lies between 0 and MAX_QUANTITY * MAX_PRICE. */
  lemma ValidSubtotalBounds(li: LineItem)
    requires ValidLineItem(li)
    ensures 0 <= li.Subtotal() <= MAX_QUANTITY * MAX_PRICE
  {
    assert li.amount * li.price <= MAX_QUANTITY * li.price;
  }

  /** The total of items that all pass validation is bounded by the item count. */
  lemma {:induction false} ValidTotalBounds(items: seq<LineItem>)
    requires forall i :: 0 <= i < |items| ==> ValidLineItem(items[i])
    ensures 0 <= SumSubtotals(items) <= |items| * (MAX_QUANTITY * MAX_PRICE)
    decreases |items|
  {
    if items != [] {
      ValidTotalBounds(items[..|items| - 1]);
      ValidSubtotalBounds(items[|items| - 1]);
    }
  }

  /** Tags each of an item's issues with its line number. */
  function OnLineAll(n: int, issues: seq<Issue>): (r: seq<Issue>)
    ensures |r| == |issues|
    ensures forall i :: 0 <= i < |issues| ==> r[i] == OnLine(n, issues[i])
  {
    seq(|issues|, i requires 0 <= i < |issues| => OnLine(n, issues[i]))
  }

  /** Per-item issue lists, each tagged with its line number, the first
      list being line `first`, concatenated in order: the loop of
      `validate_invoice` over `enumerate(invoice.line_items)`. */
  function Tagged(groups: seq<seq<Issue>>, first: int): (issues: seq<Issue>)
    ensures forall i :: 0 <= i < |issues| ==> issues[i].OnLine?
    decreases |groups|
  {
    if groups == [] then [] else OnLineAll(first, groups[0]) + Tagged(groups[1..], first + 1)
  }

  /** Nothing is reported exactly when every list is empty. */
  lemma {:induction false} TaggedEmpty(groups: seq<seq<Issue>>, first: int)
    ensures Tagged(groups, first) == [] <==> forall k :: 0 <= k < |groups| ==> groups[k] == []
    decreases |groups|
  {
    if groups != [] {
      TaggedEmpty(groups[1..], first + 1);
      assert forall k :: 1 <= k < |groups| ==> groups[k] == groups[1..][k - 1];
    }
  }

  /** Lists of at most three issues give at most three issues per list. */
  lemma {:induction false} TaggedCount(groups: seq<seq<Issue>>, first: int)
    requires forall k :: 0 <= k < |groups| ==> |groups[k]| <= 3
    ensures |Tagged(groups, first)| <= 3 * |groups|
    decreases |groups|
  {
    if groups != [] {
      assert forall k :: 1 <= k < |groups| ==> groups[1..][k - 1] == groups[k];
      TaggedCount(groups[1..], first + 1);
    }
  }

  /** Tagging two runs of lists gives the first run's issues, then the second's. */
  lemma {:induction false} TaggedAppend(a: seq<seq<Issue>>, b: seq<seq<Issue>>, first: int)
    ensures Tagged(a + b, first) == Tagged(a, first) + Tagged(b, first + |a|)
    decreases |a|
  {
    if a == [] {
      assert a + b == b;
    } else {
      assert (a + b)[0] == a[0];
      assert (a + b)[1..] == a[1..] + b;
      TaggedAppend(a[1..], b, first + 1);
      var h := OnLineAll(first, a[0]);
      var p := Tagged(a[1..], first + 1);
      var q := Tagged(b, first + |a|);
      assert h + (p + q) == (h + p) + q;
    }
  }

  /** The issues of each item, in item order. */
  function ItemIssueLists(items: seq<LineItem>): (groups: seq<seq<Issue>>)
    ensures |groups| == |items|
  {
    seq(|items|, k requires 0 <= k < |items| => LineItemIssues(items[k]))
  }

  /** The issues of `items`, the first of which is line `first`: each item's
      issues in turn, tagged with its line number. */
  function LineIssues(items: seq<LineItem>, first: int): (issues: seq<Issue>)
    ensures forall i :: 0 <= i < |issues| ==> issues[i].OnLine?
  {
    Tagged(ItemIssueLists(items), first)
  }

  /** The items raise no issue exactly when every one of them is valid. */
  lemma LineIssuesEmpty(items: seq<LineItem>, first: int)
    ensures LineIssues(items, first) == [] <==> forall i :: 0 <= i < |items| ==> ValidLineItem(items[i])
  {
    var groups := ItemIssueLists(items);
    TaggedEmpty(groups, first);
    assert forall k :: 0 <= k < |items| ==> (groups[k] == [] <==> ValidLineItem(items[k]));
  }

  /** Each item contributes at most three issues. */
  lemma LineIssuesCount(items: seq<LineItem>, first: int)
    ensures |LineIssues(items, first)| <= 3 * |items|
  {
    var groups := ItemIssueLists(items);
    forall k | 0 <= k < |groups|
      ensures |groups[k]| <= 3
    {
      LineItemIssuesShape(items[k]);
    }
    TaggedCount(groups, first);
  }

  /** The header checks of `validate_invoice`, in the order they run. */
  function HeaderIssues(inv: Invoice): (issues: seq<Issue>)
    ensures |issues| <= 3
  {
    When(PyStr.Strip(inv.invoiceNumber) == [], InvoiceNumberEmpty)
    + When(PyStr.Strip(inv.customerName) == [], CustomerNameEmpty)
    + When(|inv.lineItems| == 0, NoLineItems)
  }

  /** The issues `validate_invoice` reports: the three header checks, then
      every item's issues in line order, lines counted from 1. */
  function InvoiceIssues(inv: Invoice): (issues: seq<Issue>)
    ensures issues == [] <==> ValidInvoice(inv)
  {
    PyStr.StripEmptyIffBlank(inv.invoiceNumber);
    PyStr.StripEmptyIffBlank(inv.customerName);
    LineIssuesEmpty(inv.lineItems, 1);
    HeaderIssues(inv) + LineIssues(inv.lineItems, 1)
  }

  /** Each header issue is reported exactly when its condition holds, and
      at most three issues per item come on top of the three header ones. */
  lemma InvoiceIssuesReport(inv: Invoice)
    ensures InvoiceNumberEmpty in InvoiceIssues(inv) <==> PyStr.IsBlank(inv.invoiceNumber)
    ensures CustomerNameEmpty in InvoiceIssues(inv) <==> PyStr.IsBlank(inv.customerName)
    ensures NoLineItems in InvoiceIssues(inv) <==> inv.lineItems == []
    ensures |InvoiceIssues(inv)| <= 3 + 3 * |inv.lineItems|
  {
    PyStr.StripEmptyIffBlank(inv.invoiceNumber);
    PyStr.StripEmptyIffBlank(inv.customerName);
    LineIssuesCount(inv.lineItems, 1);
    var lines := LineIssues(inv.lineItems, 1);
    assert InvoiceNumberEmpty !in lines && CustomerNameEmpty !in lines && NoLineItems !in lines;
  }

  /** `InvoiceValidator.validate_invoice`. */
  function ValidateInvoice(inv: Invoice): (errors: seq<string>)
    ensures errors == [] <==> ValidInvoice(inv)
    ensures |errors| == |InvoiceIssues(inv)|
    ensures forall i :: 0 <= i < |errors| ==> errors[i] == Message(InvoiceIssues(inv)[i])
  {
    Messages(InvoiceIssues(inv))
  }

  /** Item issues come in line order: those of two consecutive runs of items
      are the first run's followed by the second's. */
  lemma LineIssuesAppend(a: seq<LineItem>, b: seq<LineItem>, first: int)
    ensures LineIssues(a + b, first) == LineIssues(a, first) + LineIssues(b, first + |a|)
  {
    assert ItemIssueLists(a + b) == ItemIssueLists(a) + ItemIssueLists(b);
    TaggedAppend(ItemIssueLists(a), ItemIssueLists(b), first);
  }

  /** List `i` (0-based) of the lists tagged from line 1 is tagged with line
      i + 1 and sits between the issues of the lists before and after it. */
  lemma TaggedInPlace(groups: seq<seq<Issue>>, i: int)
    requires 0 <= i < |groups|
    ensures Tagged(groups, 1) ==
              Tagged(groups[..i], 1) + OnLineAll(i + 1, groups[i]) + Tagged(groups[i + 1..], i + 2)
  {
    var rest := [groups[i]] + groups[i + 1..];
    assert groups == groups[..i] + rest;
    TaggedAppend(groups[..i], rest, 1);
    assert rest[0] == groups[i];
    assert rest[1..] == groups[i + 1..];
    var h := Tagged(groups[..i], 1);
    var m := OnLineAll(i + 1, groups[i]);
    var t := Tagged(groups[i + 1..], i + 2);
    assert Tagged(rest, i + 1) == m + t;
    assert h + (m + t) == (h + m) + t;
  }

  /** Item `i` (0-based) contributes its own issues, tagged with line i + 1,
      after those of every earlier item and before those of every later one. */
  lemma ItemIssuesInPlace(items: seq<LineItem>, i: int)
    requires 0 <= i < |items|
    ensures LineIssues(items, 1) ==
              LineIssues(items[..i], 1)
              + OnLineAll(i + 1, LineItemIssues(items[i]))
              + LineIssues(items[i + 1..], i + 2)
  {
    var groups := ItemIssueLists(items);
    assert groups[..i] == ItemIssueLists(items[..i]);
    assert groups[i + 1..] == ItemIssueLists(items[i + 1..]);
    TaggedInPlace(groups, i);
  }

  /** An item's issue on line n reads "Line n: " followed by the item's own message. */
  lemma OnLineMessage(n: int, li: LineItem, k: int)
    requires 0 <= k < |LineItemIssues(li)|
    ensures Message(OnLineAll(n, LineItemIssues(li))[k]) == LinePrefix(n) + ValidateLineItem(li)[k]
  {
  }

  /** A fresh invoice fails validation for exactly two reasons: the empty
      customer name and the empty description of line 1. */
  lemma CreateDefaultIssues(stamp: string, date: string)
    ensures InvoiceIssues(CreateDefault(stamp, date)) == [CustomerNameEmpty, OnLine(1, DescriptionEmpty)]
    ensures !ValidInvoice(CreateDefault(stamp, date))
  {
    var inv := CreateDefault(stamp, date);
    var li := inv.lineItems[0];
    assert PyStr.Strip(inv.invoiceNumber) != [] by {
      assert !PyStr.IsBlank(inv.invoiceNumber) by {
        assert inv.invoiceNumber[0] == 'I';
      }
      PyStr.StripEmptyIffBlank(inv.invoiceNumber);
    }
    assert PyStr.Strip(li.description) == [] by {
      PyStr.StripEmptyIffBlank(li.description);
    }
    assert HeaderIssues(inv) == [CustomerNameEmpty] by {
      PyStr.StripEmptyIffBlank(inv.customerName);
    }
    assert LineItemIssues(li) == [DescriptionEmpty];
    var groups := ItemIssueLists(inv.lineItems);
    assert groups == [[DescriptionEmpty]];
    assert OnLineAll(1, groups[0]) == [OnLine(1, DescriptionEmpty)];
    assert LineIssues(inv.lineItems, 1) == OnLineAll(1, groups[0]) + Tagged(groups[1..], 2);
  }

  /** The messages of a fresh invoice, word for word. */
  lemma CreateDefaultMessages(stamp: string, date: string)
    ensures ValidateInvoice(CreateDefault(stamp, date))
            == ["Customer name cannot be empty", "Line 1: " + "Description cannot be empty"]
  {
    CreateDefaultIssues(stamp, date);
    var errors := ValidateInvoice(CreateDefault(stamp, date));
    assert LinePrefix(1) == "Line 1: " by {
      assert Decimal.DecimalString(1) == "1";
    }
    assert errors[1] == LinePrefix(1) + "Description cannot be empty";
  }
}
